=== FILE: README.md ===
# Aggregating meter, protostellar error mapping and analytics statements

This project is a Dafny model of three parts of the Couchbase Go SDK (gocb). Each part comes with the properties proved about it.

**The aggregating meter** (`aggregating_meter.go`) keeps one latency histogram per (service, peer). It has a fixed table of six service groups: kv, views, query, search, analytics and management. Each group maps a peer name to a value recorder.
- Each recorder owns a histogram with a fixed number of bins. The bin boundaries grow geometrically: start value 1000, common ratio 1.5, maximum value 2,000,000. That gives 21 bins, including a bin for values up to the start value and an overflow bin.
- Recording a value adds one to exactly one bin.
- On each tick, the meter sweeps every histogram into a cumulative snapshot and resets its counters. For each peer it reports the total and the bins at the 50, 90, 99, 99.9 and 100 percentiles.
- Modules:
  - `Bins`: bin selection.
  - `Counts`: totals and prefix sums.
  - `Histogram`: the `LatencyHistogram` class over an array, the snapshot and its percentile search.
  - `Meter`: the recorder, group and meter classes, routing and summary generation.
  - `Logger`: the logging loop.

**The protostellar error mapping** (`error_ps.go`, module `ErrorStatus`) turns a gRPC status into the SDK's error. The first detail of the status can decide the base error. This happens when it is a precondition failure of a known violation type, or resource information under NotFound or AlreadyExists. Otherwise the status code decides. The error's context records the server message, the number of details and any resource information.

**The analytics index manager's statement builders** (`cluster_analyticsindexes.go`, modules `Analytics` and `AnalyticsParse`) produce the text of the CREATE/DROP DATAVERSE, DATASET and INDEX and the CONNECT/DISCONNECT LINK statements. They also reject the arguments the manager refuses, and copy metadata rows into `AnalyticsDataset` and `AnalyticsIndex`.
- Every statement has a parser beside it.
- Round-trip lemmas show what the text gives back: every name and flag it was built from, the WHERE clause of a CREATE DATASET condition rather than the condition itself (a condition "x" and a condition "WHERE x" give the same text), and the link actually named (an empty link name comes back as "Local").
- For CREATE INDEX, the field list describes exactly the field map, whatever order the map is visited in.

### How the models are built
- **Exact reals.** Bin selection is modelled on exact reals. A value above maxValue goes to the overflow bin and a value at most startValue to bin 0. For a value in (startValue, maxValue] the bin is the least `k` with `startValue * ratio^k >= value`, the exact value of the source's `ceil(log(v / start) / log(ratio))`.
- **Percentile answers.** A percentile answer is a `Bound`:
  - `AtMost(i)` is rendered as "<= label".
  - `Above(i)` is rendered as "> label", for the overflow bin.
  - `NoBin` is the fallback "0.0".
- **Summaries.** The meter's summary is a `Report` value. `Rendered` gives the object the logger marshals: "meta" plus one entry per reported service.
- **Specification by state.** `GenerateOutput` is proved against a ghost record of what every histogram held before the call. For each service, the report holds a service exactly when its group has at least one recorder. The service then holds each peer's reference `Summary`, and every histogram is reset.

### Where this model follows the code rather than its description
- A service appears in the summary whenever its group has at least one recorder, even if nothing was recorded since the last tick (aggregating_meter.go:118-127). It does not require at least one recorded value.

## Model

| member | source | states |
|---|---|---|
| Bins.LeastCover | aggregating_meter.go:210 | the least k whose bin upper end startValue·ratio^k reaches v: the exact ceil(log(v/start)/log(ratio)) |
| Bins.BinFor | aggregating_meter.go:202-211 | the bin is below the bin count; values above maxValue go to the last bin and values at or below startValue to bin 0; any other value lies in (upper end of bin b-1, upper end of bin b] |
| Bins.BinForMonotone | aggregating_meter.go:202-211 | a larger value never goes into a lower bin |
| Bins.OverflowBinExactly | aggregating_meter.go:205-206 | a value goes into the overflow bin exactly when it exceeds maxValue |
| Bins.BinUpperBoundSound | aggregating_meter.go:207-210 | a value is at most the upper end of its bin and of every later regular bin |
| Bins.BinUpperBoundComplete | aggregating_meter.go:207-210 | a value at most the upper end of a regular bin other than the last goes into that bin or an earlier one (for the last regular bin it does not hold: values between maxValue and that bin's upper end go to the overflow bin) |
| Bins.RecorderBinCount | aggregating_meter.go:256-261 | the recorder shape (2,000,000 / 1000 / 1.5) has ceil(log(2000)/log(1.5)) + 2 = 21 bins |
| Counts.PrefixSumsNonDecreasing | aggregating_meter.go:219-223 | cumulative counts never decrease |
| Counts.PrefixSumsLast | aggregating_meter.go:232-234 | the last cumulative count is the total count |
| Counts.PrefixSumsRoundTrip | aggregating_meter.go:216-223 | differencing the cumulative counts gives back the per-bin counts: the snapshot loses nothing |
| Counts.FirstFullIndexIsLastNonEmpty | aggregating_meter.go:236-246 | the first bin whose cumulative count reaches the total has every later bin empty, and is itself non-empty when anything was counted |
| Histogram.RecordChangesOneBin | aggregating_meter.go:202-214 | recording adds one to the value's bin, leaves every other bin unchanged and adds one to the total |
| Histogram.RecordAllTotal | aggregating_meter.go:202-214 | n recordings add n to the total |
| Histogram.RecordAllPrefix | aggregating_meter.go:216-223 | cumulative count i after recordings is the old one plus the number of values landing in bins 0..i |
| Histogram.CountInBinsBounds | aggregating_meter.go:207-210 | values landing in bins 0..i are at most bin i's upper end; below the last regular bin, exactly those values are |
| Histogram.LatencyHistogram.constructor | aggregating_meter.go:187-200 | a fresh histogram of the given shape with the bin count of that shape, all counters zero |
| Histogram.LatencyHistogram.RecordValue | aggregating_meter.go:202-214 | the counters become exactly the counters after recording the value |
| Histogram.LatencyHistogram.AggregateAndReset | aggregating_meter.go:216-230 | every counter is zero afterwards, and the snapshot holds the prefix sums of the old counters with the shape's ratio and start value |
| Histogram.CumulativeLatencyHistogram.TotalCount | aggregating_meter.go:232-234 | the last cumulative entry is the sum of the counts the snapshot accumulated |
| Histogram.ThresholdBounds | aggregating_meter.go:238 | for percentiles from 0 to 100 the threshold ceil(p/100·total) is at most the total, and is the total at 100 |
| Histogram.FirstReachingFinds | aggregating_meter.go:239-248 | the reference search finds the first cumulative bin reaching the count, labelled "above" only for the last bin, or the fallback when none reaches it |
| Histogram.PercentileBoundIsAnswer | aggregating_meter.go:236-249 | an answer fits a percentile exactly when it is the reference answer PercentileBound |
| Histogram.BinAtPercentile | aggregating_meter.go:236-249 | the answer is the first bin whose cumulative count reaches ceil(p/100·total), "above" for the last bin; never the fallback for p up to 100 |
| Histogram.RecordedCumulative | aggregating_meter.go:216-223 | after recording values into an empty histogram, cumulative count i is the number of values in bins 0..i |
| Histogram.RecordedTotal | aggregating_meter.go:232-234 | the total of a snapshot of values recorded into an empty histogram is their number |
| Histogram.CumulativeLabelSound | aggregating_meter.go:239-244 | if bin i is the first to reach count, at least count values are at most its upper end and fewer than count are at most the previous bin's |
| Histogram.PercentileLabelSound | aggregating_meter.go:236-244 | a "<=" percentile answer bounds at least the threshold's worth of values, and the previous bin bounds fewer |
| Histogram.FullPercentileIsHighestBin | aggregating_meter.go:276 | the 100th percentile answer is never the fallback and is the highest non-empty bin |
| Histogram.IntendedLabelSound | aggregating_meter.go:241-244 | with maxValue as the overflow label, each value lies on the labelled side of its bin's label |
| Histogram.OverflowLabelAsWritten | aggregating_meter.go:241-242 | 2,100,000 goes into the overflow bin yet is below that bin's label as written, 1.5^19·1000 |
| Histogram.SingleValueExample | aggregating_meter.go:263-278 | recording 1000 once gives total 1 and median "<= 1000" |
| Histogram.ResetTwiceExample | aggregating_meter.go:216-234 | a second reset with no recording in between has total 0 |
| Meter.ServiceIndex | aggregating_meter.go:56-75 | each of the six services has its own position in the group table |
| Meter.ParseServiceExactly | aggregating_meter.go:147-149 | a tag value selects a group exactly when it is that service's name |
| Meter.ServiceNamesDistinct | aggregating_meter.go:56-75 | distinct services have distinct names |
| Meter.Route | aggregating_meter.go:137-154 | a routed recording always has the responses metric, a service tag naming the routed service and a peer tag giving the routed peer |
| Meter.RouteExactly | aggregating_meter.go:137-154 | a recording goes to (service, peer) exactly when the metric is the responses metric, the service tag names a known service and the peer tag is present |
| Meter.SummaryOfAnswers | aggregating_meter.go:267-278 | the total and the five percentile answers, assembled, summarize the cumulative histogram |
| Meter.SummaryExactly | aggregating_meter.go:267-278 | a summary reports a histogram's counts exactly when it equals the reference Summary of those counts |
| Meter.ReportOfSummaries | aggregating_meter.go:122-127 | a map holding each peer's summary is the service's report |
| Meter.ReportStep | aggregating_meter.go:115-128 | adding a service's entry when it has one extends the reported prefix of services |
| Meter.RenderedEntries | aggregating_meter.go:110-127 | the logged object has "meta" with the interval, and holds a service's name exactly when that service is reported, with its peers' summaries |
| Meter.RenderedKeys | aggregating_meter.go:110-127 | every key of the logged object is "meta" or a service name |
| Meter.RenderedOnlyMeta | aggregating_meter.go:95 | the logged object holds only "meta" exactly when no service is reported |
| Meter.EmitInterval | aggregating_meter.go:46-53 | the interval is never zero; it is the configured one whenever that is non-zero, and the 10-minute default when the options are absent or the interval is zero |
| Meter.AggregatingValueRecorder.constructor | aggregating_meter.go:256-261 | a recorder for the peer with a fresh, zeroed histogram of the recorder shape |
| Meter.AggregatingValueRecorder.RecordValue | aggregating_meter.go:263-265 | the recorder's histogram records the value |
| Meter.AggregatingValueRecorder.GetAndResetValues | aggregating_meter.go:267-279 | the histogram is reset, and the result is the reference Summary of the counts it held |
| Meter.RecordValue | aggregating_meter.go:263-265 | a live handle records into its histogram; the no-op handle changes nothing |
| Meter.AggregatingMeterGroup.GetOrCreate | aggregating_meter.go:157-163 | an existing peer's recorder is returned unchanged; a new peer gets a fresh recorder added under its name |
| Meter.AggregatingMeterGroup.Recorders | aggregating_meter.go:17-32 | a sequence holding every recorder of the group exactly once, each under its own peer name |
| Meter.AggregatingMeter.constructor | aggregating_meter.go:46-80 | six fresh, empty groups, one per service, and the configured or default interval |
| Meter.AggregatingMeter.HistogramsDistinct | aggregating_meter.go:160-161 | distinct (service, peer) recorders never share a counter array |
| Meter.AggregatingMeter.ValueRecorder | aggregating_meter.go:137-166 | no-op exactly when the recording is not routed; otherwise the routed peer's recorder, created on first use, with every other group unchanged |
| Meter.AggregatingMeter.Enumerate | aggregating_meter.go:118 | the group's recorders, each once, holding their peers' counts |
| Meter.AggregatingMeter.CollectRecorders | aggregating_meter.go:122-124 | each recorder's peer is mapped to the Summary of its counts, and each histogram is reset |
| Meter.AggregatingMeter.ServiceOutput | aggregating_meter.go:116-127 | the service's entry is its report (absent without recorders), and all its histograms are reset |
| Meter.AggregatingMeter.ServiceStep | aggregating_meter.go:115-128 | one more service is reset and reported, and every other service's histograms are untouched |
| Meter.AggregatingMeter.GenerateOutput | aggregating_meter.go:109-131 | the report carries the interval, each service's entry is the report of what its histograms held, and every histogram is reset |
| Meter.AggregatingMeter.SnapshotHolds | aggregating_meter.go:109-131 | a record of what every histogram holds exists, so GenerateOutput's precondition can be met |
| Logger.LoggerRoutineAsWritten | aggregating_meter.go:86-107 | the loop logs what LoggedAsWritten describes: renderings until a stop signal or a rendering with only "meta" |
| Logger.LoggerRoutine | aggregating_meter.go:86-107 | the loop with meta-only renderings skipped logs what Logged describes |
| Logger.LoggedReportsServices | aggregating_meter.go:86-107 | the corrected loop logs every tick's rendering that reports a service, never a meta-only one, at most one entry per tick |
| Logger.AsWrittenIsPrefix | aggregating_meter.go:95-98 | what the loop as written logs is a prefix of what the corrected loop logs |
| Logger.AsWrittenAgreesWithoutEmptyTicks | aggregating_meter.go:95-98 | the two loops agree whenever every tick before the stop reports some service |
| Logger.EmptyTickEndsLogging | aggregating_meter.go:95-98 | an empty tick followed by a tick with a service: the loop as written logs nothing, though the second should be logged |
| ErrorStatus.MapStatus | error_ps.go:39-150 | a first detail that decides an error gives that sentinel; a status-as-error carries the status's own code and message; a wrapped error only comes from Unauthenticated, PermissionDenied or Unimplemented; no base error only from OK; the context carries the server message |
| ErrorStatus.ContextContents | error_ps.go:40-71 | the context holds the server message and the number of details, holds resource name and type exactly when the first detail is resource information, and holds nothing else |
| ErrorStatus.OnlyFirstDetail | error_ps.go:46-50 | details after the first change neither the error nor the context |
| ErrorStatus.UndecidedDetailFallsThrough | error_ps.go:109-114 | a first detail that decides nothing gives the error the code alone gives |
| ErrorStatus.PreconditionViolations | error_ps.go:51-68 | the first violation's type decides the six precondition errors whatever the code; an unknown type falls through to the code |
| ErrorStatus.ResourceErrors | error_ps.go:69-107 | under NotFound and AlreadyExists each known resource type gives its not-found and exists error, with both index types giving the index errors |
| ErrorStatus.ResourceInfoOtherCodes | error_ps.go:69-90 | under any other code resource information decides nothing |
| ErrorStatus.IndexErrorsExactly | error_ps.go:73-107 | the index errors arise exactly from a first resource detail of an index type under NotFound or AlreadyExists |
| ErrorStatus.CasMismatchExactly | error_ps.go:51-56 | CAS mismatch arises exactly from a first precondition failure whose first violation is CAS |
| ErrorStatus.DeadlineByReadOnly | error_ps.go:128-133 | a deadline is an unambiguous timeout exactly for read-only operations |
| ErrorStatus.CodeGroups | error_ps.go:114-148 | the code-only table's groups: three codes give an internal failure, two give the wrapped authentication failure, two give invalid argument, OK gives no base error (its status converts to nil), and the remaining codes, including numbers outside the named ones, give the status itself |
| ErrorStatus.StatusErrorExactly | error_ps.go:114-148 | the status itself is the error exactly when no detail decides and the code is outside the table and not OK (an unnamed code number included); no base error exactly when no detail decides and the code is OK |
| Analytics.CreateDataverse | cluster_analyticsindexes.go:119-135 | fails exactly for an empty name, with the invalid-arguments error "dataset name cannot be empty" |
| Analytics.DropDataverse | cluster_analyticsindexes.go:163-172 | never refuses its arguments and gives a DROP DATAVERSE statement; its content is given back by AnalyticsParse.DropDataverseRoundTrip |
| Analytics.CreateDataset | cluster_analyticsindexes.go:201-231 | fails exactly for an empty dataset name, with the invalid-arguments error "dataset name cannot be empty" |
| Analytics.DropDataset | cluster_analyticsindexes.go:259-275 | never refuses its arguments and gives a DROP DATASET statement opening with the quoted reference; its content is given back by AnalyticsParse.DropDatasetRoundTrip |
| Analytics.CreateIndexInOrder | cluster_analyticsindexes.go:347-379 | fails exactly for an empty index name or field map, the index name being checked first, each with its own message |
| Analytics.CreateIndex | cluster_analyticsindexes.go:347-379 | the field map is visited in some order, each key once, and the result is the statement for that order |
| Analytics.WhereClauseIsWhere | cluster_analyticsindexes.go:217-223 | an empty condition adds nothing; otherwise the clause ends with the condition and starts with WHERE in some letter case; "WHERE " is prefixed exactly when the upper-cased condition does not start with WHERE |
| Analytics.DropIndex | cluster_analyticsindexes.go:407-423 | never refuses its arguments and gives a DROP INDEX statement opening with the quoted reference; its content is given back by AnalyticsParse.DropIndexRoundTrip |
| Analytics.LinkTarget | cluster_analyticsindexes.go:499-501 | the link named is never empty, and is the given one when that is non-empty |
| Analytics.ConnectLink | cluster_analyticsindexes.go:494-503 | an empty link name in the options is overwritten with "Local", and the statement is CONNECT LINK with that name |
| Analytics.DisconnectLink | cluster_analyticsindexes.go:530-539 | an empty link name in the options is overwritten with "Local", and the statement is DISCONNECT LINK with that name |
| Analytics.AnalyticsDataset.FromData | cluster_analyticsindexes.go:83-90 | each row field is copied into its public field, and no error is returned |
| Analytics.AnalyticsIndex.FromData | cluster_analyticsindexes.go:100-107 | each row field is copied into its public field, and no error is returned |
| AnalyticsParse.ParseReferenceOf | cluster_analyticsindexes.go:225-229 | a dataset reference, quoted alone or within its dataverse, parses back to the dataverse ("" for none) and dataset |
| AnalyticsParse.CreateDataverseRoundTrip | cluster_analyticsindexes.go:124-135 | a CREATE DATAVERSE statement gives back its name and IF NOT EXISTS flag |
| AnalyticsParse.DropDataverseRoundTrip | cluster_analyticsindexes.go:163-172 | a DROP DATAVERSE statement gives back its name and IF EXISTS flag |
| AnalyticsParse.CreateDatasetRoundTrip | cluster_analyticsindexes.go:201-231 | a CREATE DATASET statement gives back its flag, dataverse, dataset, bucket and the WHERE clause of the condition |
| AnalyticsParse.DropDatasetRoundTrip | cluster_analyticsindexes.go:259-275 | a DROP DATASET statement gives back its dataverse, dataset and flag |
| AnalyticsParse.CreateIndexRoundTrip | cluster_analyticsindexes.go:347-379 | a CREATE INDEX statement gives back its index, flag, dataverse and dataset, and its field list describes exactly the field map |
| AnalyticsParse.SplitJoin | cluster_analyticsindexes.go:379 | splitting the comma-joined field entries gives back the entries |
| AnalyticsParse.FieldMapOfSpecs | cluster_analyticsindexes.go:368-371 | the "name:type" entries describe the field map restricted to the visited names |
| AnalyticsParse.DropIndexRoundTrip | cluster_analyticsindexes.go:407-423 | a DROP INDEX statement gives back its dataverse, dataset, index and flag |
| AnalyticsParse.LinkRoundTrip | cluster_analyticsindexes.go:499-539 | a link statement says whether it connects or disconnects, and names a non-empty link |

## Left out
- Analytics.DropDataverse: its own contract states only how the statement opens; what it carries (the name and the IF EXISTS flag) is stated by AnalyticsParse.DropDataverseRoundTrip, because a fuller contract on the builder makes that round-trip proof too expensive.
- Analytics.DropDataset: its own contract states only how the statement opens; what it carries (the reference and the IF EXISTS flag) is stated by AnalyticsParse.DropDatasetRoundTrip, because a fuller contract on the builder makes that round-trip proof too expensive.
- Analytics.DropIndex: its own contract states only how the statement opens; what it carries (the reference, the index name and the IF EXISTS flag) is stated by AnalyticsParse.DropIndexRoundTrip, because a fuller contract on the builder makes that round-trip proof too expensive.
- Meter.AggregatingMeter.GenerateOutput: its frame is every counter array the meter has given an owner. The meter's validity states that every recorder's array is owned under its own (service, peer), but not the converse (that every owned array still belongs to a recorder). The constructor and ValueRecorder keep the two sets equal, but the model does not carry that as an invariant, so the frame does not rule out a change to an owned array no recorder holds.
- Constant spellings: the metric name `db.couchbase.responses`, the tags `db.couchbase.service` and `net.peer.name`, the service names, and the violation and resource type strings are defined in a file that is not part of this model. The model uses those literal spellings.
- Floating point: `math.Log`, `math.Ceil` and `math.Pow` are modelled on exact reals, so rounding at bin edges is not modelled.
- Histogram.Threshold: the percentile threshold `ceil(percentile / 100 * count)` is exact, while the source computes it in float64. The two can differ by one: for 99.9 and 1000 values float64 gives ceil(999.0000000000001) = 1000 where the exact value is 999 (likewise 1999 against 1998 for 2000 values). `Histogram.BinAtPercentile` and `Meter.Summary` can then report a different bin than the source: with 999 values in bin 3 and one in bin 10, the source reports bin 10 for "99.9" and the model `AtMost(3)`. The "%.2f" label text is left out; an answer is the `Bound` and its label number.
- Counters are unbounded naturals. The uint64 wrap-around of the bins and of the running total in AggregateAndReset is not modelled.
- Concurrency: the group mutex and the atomic add and swap are left out. Each operation is modelled as one atomic step.
- Go map iteration order:
  - `Recorders` returns its recorders in some order. Only "each once" is stated.
  - `GenerateOutput` visits services in a fixed order. The result does not depend on the order.
  - `CreateIndex` visits the field map in a nondeterministic order, returned as a ghost sequence.
- Meter.AggregatingMeter.GenerateOutput: it takes a ghost record of what every histogram held. The source has no such parameter; it is the specification's handle on the old state.
- Meter.AggregatingMeter.Counter: it has no contract. It always hands out the one no-op counter, and a type with one value leaves nothing to state.
- The logger's timer, stop channel, JSON marshalling and log output are left out. The loop is modelled over a sequence of events, each tick carrying the summary generated at that moment. `close` is not modelled.
- `status.FromError` and the gRPC detail types are left out; a nil status, whose code is OK, is covered by the OK case of `ErrorStatus.CodeError`. A status is modelled as a code, a message and details already classified as precondition failure, resource information or other. `makeGenericError` and `wrapError` are modelled as datatype constructors.
- Analytics query execution, spans, timeouts, the management request (GetPendingMutations) and the row decoding in GetAllDatasets and GetAllIndexes are I/O and are left out. A decoded row is modelled as a datatype.
- Analytics.WhereClause: `strings.ToUpper` is modelled for ASCII letters only.
- AnalyticsParse round trips assume names without a backtick, field names without ':' or ',', and field types without ','. Names with those characters make the statement text itself ambiguous.

## Findings

| source | as written | input that shows it | evidently intended | confidence | as-written member | corrected member |
|---|---|---|---|---|---|---|
| aggregating_meter.go:95-98 | a summary holding only "meta" makes the logger routine return for good | a tick before any recorder exists, then a tick after one has recorded: nothing is logged at all | skip that tick and keep waiting, as the comment says | medium, not executed | Logger.EmptyTickEndsLogging | Logger.LoggedReportsServices |
| aggregating_meter.go:241-242 | the overflow bin is labelled "> ratio^(n-2)·start", which is 2216837.82 for the recorder shape | recording 2,100,000: it goes into the overflow bin (above maxValue 2,000,000) but is below the "> 2216837.82" label | label the overflow bin "> maxValue" | medium, not executed | Histogram.OverflowLabelAsWritten | Histogram.IntendedLabelSound |

=== FILE: analytics.dfy ===
/**
 * The analytics index manager's statement builders: the argument checks
 * and the text of the CREATE/DROP DATAVERSE, DATASET and INDEX and the
 * CONNECT/DISCONNECT LINK statements it sends, and the copies from the
 * metadata rows into AnalyticsDataset and AnalyticsIndex.
 *
 * Every statement has a parser beside it. The round-trip lemmas show what a
 * statement gives back: every name and flag it was built from, the WHERE
 * clause of a CREATE DATASET condition rather than the condition itself, and
 * the link actually named (an empty link name comes back as "Local").
 */
module Analytics {
  import opened Wrappers

  /** The error the manager returns for a bad argument, with its message. */
  datatype AnalyticsError = InvalidArguments(message: string)

  /*
   * Options. A nil options pointer behaves like the zero value; the
   * builders take an Option and fall back to these defaults.
   */
  datatype CreateDataverseOptions = CreateDataverseOptions(ignoreIfExists: bool)
  datatype DropDataverseOptions = DropDataverseOptions(ignoreIfNotExists: bool)
  datatype CreateDatasetOptions = CreateDatasetOptions(ignoreIfExists: bool, condition: string, dataverseName: string)
  datatype DropDatasetOptions = DropDatasetOptions(ignoreIfNotExists: bool, dataverseName: string)
  datatype CreateIndexOptions = CreateIndexOptions(ignoreIfExists: bool, dataverseName: string)
  datatype DropIndexOptions = DropIndexOptions(ignoreIfNotExists: bool, dataverseName: string)

  function OrElse<T>(opts: Option<T>, zero: T): T
  {
    if opts.Some? then opts.value else zero
  }

  // ---------------------------------------------------------------------
  // Pieces of statement text
  // ---------------------------------------------------------------------

  /** The clause IgnoreIfExists adds to a CREATE statement. */
  function IfNotExists(ignore: bool): string
  {
    if ignore then "IF NOT EXISTS" else ""
  }

  /** The clause IgnoreIfNotExists adds to a DROP statement. */
  function IfExists(ignore: bool): string
  {
    if ignore then "IF EXISTS" else ""
  }

  /** A dataset named on its own, or within a dataverse, each part in backticks. */
  function DatasetReference(dataverseName: string, datasetName: string): string
  {
    if dataverseName == "" then "`" + datasetName + "`"
    else "`" + dataverseName + "`.`" + datasetName + "`"
  }

  /** ASCII upper case of one character. */
  function Upper(c: char): char
  {
    if 'a' <= c <= 'z' then (c as int - 32) as char else c
  }

  function ToUpper(s: string): (u: string)
    ensures |u| == |s|
  {
    seq(|s|, i requires 0 <= i < |s| => Upper(s[i]))
  }

  /** The WHERE clause of CREATE DATASET built from its condition. */
  function WhereClause(condition: string): string
  {
    if condition == "" then ""
    else (if "WHERE" <= ToUpper(condition) then "" else "WHERE ") + condition
  }

  /**
   * An empty condition adds nothing; any other condition ends the clause,
   * which always starts with WHERE in some letter case, and "WHERE " is put
   * in front exactly when the condition does not already start with it.
   */
  lemma WhereClauseIsWhere(condition: string)
    ensures condition == "" ==> WhereClause(condition) == ""
    ensures condition != "" ==> "WHERE" <= ToUpper(WhereClause(condition))
    ensures condition != "" ==>
              (WhereClause(condition) == condition <==> "WHERE" <= ToUpper(condition))
    ensures condition != "" && !("WHERE" <= ToUpper(condition)) ==>
              WhereClause(condition) == "WHERE " + condition
  {
    if condition != "" && !("WHERE" <= ToUpper(condition)) {
      var w := "WHERE " + condition;
      assert ToUpper(w)[..5] == "WHERE" by {
        forall i | 0 <= i < 5
          ensures ToUpper(w)[i] == "WHERE"[i]
        {
          assert w[i] == "WHERE "[i];
        }
      }
      assert |w| != |condition|;
    }
  }

  // ---------------------------------------------------------------------
  // The statement builders
  // ---------------------------------------------------------------------

  const DefaultCreateDataverse := CreateDataverseOptions(false)
  const DefaultDropDataverse := DropDataverseOptions(false)
  const DefaultCreateDataset := CreateDatasetOptions(false, "", "")
  const DefaultDropDataset := DropDatasetOptions(false, "")
  const DefaultCreateIndex := CreateIndexOptions(false, "")
  const DefaultDropIndex := DropIndexOptions(false, "")

  /** CREATE DATAVERSE: an empty name is refused before any statement exists. */
  function CreateDataverse(dataverseName: string, opts: Option<CreateDataverseOptions>): (r: Result<string, AnalyticsError>)
    ensures r.Err? <==> dataverseName == ""
    ensures r.Err? ==> r.error == InvalidArguments("dataset name cannot be empty")
  {
    var o := OrElse(opts, DefaultCreateDataverse);
    if dataverseName == "" then Err(InvalidArguments("dataset name cannot be empty"))
    else Ok("CREATE DATAVERSE `" + dataverseName + "` " + IfNotExists(o.ignoreIfExists))
  }

  /** DROP DATAVERSE: no argument check, and the name is not quoted. */
  function DropDataverse(dataverseName: string, opts: Option<DropDataverseOptions>): (q: string)
    ensures "DROP DATAVERSE " <= q
  {
    var o := OrElse(opts, DefaultDropDataverse);
    "DROP DATAVERSE " + dataverseName + " " + IfExists(o.ignoreIfNotExists)
  }

  /** CREATE DATASET: an empty dataset name is refused. */
  function CreateDataset(datasetName: string, bucketName: string, opts: Option<CreateDatasetOptions>): (r: Result<string, AnalyticsError>)
    ensures r.Err? <==> datasetName == ""
    ensures r.Err? ==> r.error == InvalidArguments("dataset name cannot be empty")
  {
    var o := OrElse(opts, DefaultCreateDataset);
    if datasetName == "" then Err(InvalidArguments("dataset name cannot be empty"))
    else Ok("CREATE DATASET " + IfNotExists(o.ignoreIfExists) + " " + DatasetReference(o.dataverseName, datasetName)
            + " ON `" + bucketName + "` " + WhereClause(o.condition))
  }

  /** DROP DATASET: no argument check. */
  function DropDataset(datasetName: string, opts: Option<DropDatasetOptions>): (q: string)
    ensures "DROP DATASET `" <= q
  {
    var o := OrElse(opts, DefaultDropDataset);
    "DROP DATASET " + DatasetReference(o.dataverseName, datasetName) + " " + IfExists(o.ignoreIfNotExists)
  }

  /** "name:type" for each field, in the given order of field names. */
  function FieldSpecs(fields: map<string, string>, order: seq<string>): (specs: seq<string>)
    requires forall k :: k in order ==> k in fields
    ensures |specs| == |order|
  {
    seq(|order|, i requires 0 <= i < |order| => order[i] + ":" + fields[order[i]])
  }

  /** The strings joined with commas. */
  function Join(parts: seq<string>): string
  {
    if |parts| == 0 then ""
    else if |parts| == 1 then parts[0]
    else parts[0] + "," + Join(parts[1..])
  }

  /** An order in which a map's iteration may visit its keys: each key once. */
  ghost predicate IsOrdering(order: seq<string>, fields: map<string, string>)
  {
    (forall k :: k in order <==> k in fields)
    && (forall i, j :: 0 <= i < j < |order| ==> order[i] != order[j])
  }

  /**
   * CREATE INDEX when the field map is visited in the given order: an
   * empty index name is refused first, then an empty field map.
   */
  function CreateIndexInOrder(datasetName: string, indexName: string, fields: map<string, string>,
                              opts: Option<CreateIndexOptions>, order: seq<string>): (r: Result<string, AnalyticsError>)
    requires IsOrdering(order, fields)
    ensures r.Err? <==> indexName == "" || |fields| == 0
    ensures r.Err? && indexName == "" ==> r.error == InvalidArguments("index name cannot be empty")
    ensures r.Err? && indexName != "" ==> r.error == InvalidArguments("you must specify at least one field to index")
  {
    var o := OrElse(opts, DefaultCreateIndex);
    if indexName == "" then Err(InvalidArguments("index name cannot be empty"))
    else if |fields| == 0 then Err(InvalidArguments("you must specify at least one field to index"))
    else Ok("CREATE INDEX `" + indexName + "` " + IfNotExists(o.ignoreIfExists) + " ON "
            + DatasetReference(o.dataverseName, datasetName) + " (" + Join(FieldSpecs(fields, order)) + ")")
  }

  /**
   * CREATE INDEX, visiting the field map in whatever order the map's
   * iteration picks; order returns that order.
   */
  method CreateIndex(datasetName: string, indexName: string, fields: map<string, string>,
                     opts: Option<CreateIndexOptions>) returns (r: Result<string, AnalyticsError>, ghost order: seq<string>)
    ensures IsOrdering(order, fields)
    ensures r == CreateIndexInOrder(datasetName, indexName, fields, opts, order)
  {
    var o := OrElse(opts, DefaultCreateIndex);
    order := [];
    var indexFields: seq<string> := [];
    var remaining := fields.Keys;
    while remaining != {}
      invariant forall k :: k in fields <==> k in remaining || k in order
      invariant forall k :: k in order ==> k !in remaining
      invariant forall i, j :: 0 <= i < j < |order| ==> order[i] != order[j]
      invariant indexFields == FieldSpecs(fields, order)
      decreases |remaining|
    {
      var name :| name in remaining;
      indexFields := indexFields + [name + ":" + fields[name]];
      order := order + [name];
      remaining := remaining - {name};
    }
    if indexName == "" {
      return Err(InvalidArguments("index name cannot be empty")), order;
    }
    if |fields| == 0 {
      return Err(InvalidArguments("you must specify at least one field to index")), order;
    }
    var reference := DatasetReference(o.dataverseName, datasetName);
    r := Ok("CREATE INDEX `" + indexName + "` " + IfNotExists(o.ignoreIfExists) + " ON "
            + reference + " (" + Join(indexFields) + ")");
  }

  /** DROP INDEX: no argument check, and the index name is not quoted. */
  function DropIndex(datasetName: string, indexName: string, opts: Option<DropIndexOptions>): (q: string)
    ensures "DROP INDEX `" <= q
  {
    var o := OrElse(opts, DefaultDropIndex);
    "DROP INDEX " + DatasetReference(o.dataverseName, datasetName) + "." + indexName + " " + IfExists(o.ignoreIfNotExists)
  }

  /** The options of CONNECT and DISCONNECT LINK, whose link name the call may overwrite. */
  class LinkOptions {
    var linkName: string

    constructor (linkName: string)
      ensures this.linkName == linkName
    {
      this.linkName := linkName;
    }
  }

  /** The link a CONNECT or DISCONNECT LINK names: the given one, or "Local" when none is given. */
  function LinkTarget(given: string): (name: string)
    ensures name != ""
    ensures given != "" ==> name == given
  {
    if given == "" then "Local" else given
  }

  /**
   * CONNECT LINK: an empty link name in the options is replaced with
   * "Local" in place, and the statement names the link.
   */
  method ConnectLink(opts: LinkOptions?) returns (q: string)
    modifies opts
    ensures opts != null ==> opts.linkName == LinkTarget(old(opts.linkName))
    ensures q == "CONNECT LINK " + (if opts == null then LinkTarget("") else opts.linkName)
  {
    var o := opts;
    if o == null {
      o := new LinkOptions("");
    }
    if o.linkName == "" {
      o.linkName := "Local";
    }
    q := "CONNECT LINK " + o.linkName;
  }

  /**
   * DISCONNECT LINK: an empty link name in the options is replaced with
   * "Local" in place, and the statement names the link.
   */
  method DisconnectLink(opts: LinkOptions?) returns (q: string)
    modifies opts
    ensures opts != null ==> opts.linkName == LinkTarget(old(opts.linkName))
    ensures q == "DISCONNECT LINK " + (if opts == null then LinkTarget("") else opts.linkName)
  {
    var o := opts;
    if o == null {
      o := new LinkOptions("");
    }
    if o.linkName == "" {
      o.linkName := "Local";
    }
    q := "DISCONNECT LINK " + o.linkName;
  }

  // ---------------------------------------------------------------------
  // Rows of the metadata datasets
  // ---------------------------------------------------------------------

  /** A row of Metadata.`Dataset`. */
  datatype DatasetRow = DatasetRow(datasetName: string, dataverseName: string, linkName: string, bucketName: string)

  /** A row of Metadata.`Index`. */
  datatype IndexRow = IndexRow(indexName: string, datasetName: string, dataverseName: string, isPrimary: bool)

  class AnalyticsDataset {
    var name: string
    var dataverseName: string
    var linkName: string
    var bucketName: string

    /** The zero value the list of results starts from. */
    constructor ()
      ensures name == "" && dataverseName == "" && linkName == "" && bucketName == ""
    {
      name, dataverseName, linkName, bucketName := "", "", "", "";
    }

    /** The row these fields hold. */
    function AsRow(): DatasetRow
      reads this
    {
      DatasetRow(name, dataverseName, linkName, bucketName)
    }

    /** Copies each field of the row into the matching field; never fails. */
    method FromData(data: DatasetRow) returns (err: Option<AnalyticsError>)
      modifies this
      ensures name == data.datasetName && dataverseName == data.dataverseName
      ensures linkName == data.linkName && bucketName == data.bucketName
      ensures AsRow() == data
      ensures err == None
    {
      name := data.datasetName;
      dataverseName := data.dataverseName;
      linkName := data.linkName;
      bucketName := data.bucketName;
      return None;
    }
  }

  class AnalyticsIndex {
    var name: string
    var datasetName: string
    var dataverseName: string
    var isPrimary: bool

    /** The zero value the list of results starts from. */
    constructor ()
      ensures name == "" && datasetName == "" && dataverseName == "" && !isPrimary
    {
      name, datasetName, dataverseName, isPrimary := "", "", "", false;
    }

    /** The row these fields hold. */
    function AsRow(): IndexRow
      reads this
    {
      IndexRow(name, datasetName, dataverseName, isPrimary)
    }

    /** Copies each field of the row into the matching field; never fails. */
    method FromData(data: IndexRow) returns (err: Option<AnalyticsError>)
      modifies this
      ensures name == data.indexName && datasetName == data.datasetName
      ensures dataverseName == data.dataverseName && isPrimary == data.isPrimary
      ensures AsRow() == data
      ensures err == None
    {
      name := data.indexName;
      datasetName := data.datasetName;
      dataverseName := data.dataverseName;
      isPrimary := data.isPrimary;
      return None;
    }
  }
}

=== FILE: analytics_parse.dfy ===
/**
 * Parsers for the statements the analytics index manager builds, and the
 * round trips: each statement gives back the names and flags it was built
 * from (as long as the names hold no backtick, where the text's own quoting
 * would be ambiguous). A CREATE DATASET condition comes back as its WHERE
 * clause, so "x" and "WHERE x" give the same text, and a link comes back as
 * the link actually named, so an empty link name comes back as "Local".
 */
module AnalyticsParse {
  import opened Wrappers
  import opened Analytics

  /** Index of the first c in s, or |s| when there is none. */
  function IndexOf(s: string, c: char): (i: nat)
    ensures i <= |s|
    ensures i < |s| ==> s[i] == c
    ensures forall k :: 0 <= k < i ==> s[k] != c
  {
    if |s| == 0 then 0
    else if s[0] == c then 0
    else 1 + IndexOf(s[1..], c)
  }

  lemma IndexOfFirst(x: string, c: char, y: string)
    requires c !in x
    ensures IndexOf(x + [c] + y, c) == |x|
  {
    var s := x + [c] + y;
    assert s[|x|] == c;
    assert forall k :: 0 <= k < |x| ==> s[k] == x[k];
  }

  function StripPrefix(s: string, p: string): Option<string>
  {
    if p <= s then Some(s[|p|..]) else None
  }

  function StripSuffix(s: string, p: string): Option<string>
  {
    if |p| <= |s| && s[|s| - |p|..] == p then Some(s[..|s| - |p|]) else None
  }

  lemma StripPrefixOf(p: string, x: string)
    ensures StripPrefix(p + x, p) == Some(x)
  {
    assert (p + x)[..|p|] == p;
    assert (p + x)[|p|..] == x;
  }

  lemma StripSuffixOf(x: string, p: string)
    ensures StripSuffix(x + p, p) == Some(x)
  {
    assert (x + p)[|x + p| - |p|..] == p;
    assert (x + p)[..|x + p| - |p|] == x;
  }

  /** A suffix ending in another character than the text cannot be stripped. */
  lemma NotSuffix(s: string, p: string)
    requires |s| > 0 && |p| > 0 && s[|s| - 1] != p[|p| - 1]
    ensures StripSuffix(s, p) == None
  {
  }

  /** A name in backticks at the front of s, and what follows it. */
  function ParseQuoted(s: string): Option<(string, string)>
  {
    if |s| == 0 || s[0] != '`' then None
    else
      var j := IndexOf(s[1..], '`');
      if j == |s| - 1 then None else Some((s[1..j + 1], s[j + 2..]))
  }

  lemma ParseQuotedOf(x: string, rest: string)
    requires '`' !in x
    ensures ParseQuoted("`" + x + "`" + rest) == Some((x, rest))
  {
    var s := "`" + x + "`" + rest;
    assert s[1..] == x + ['`'] + rest;
    IndexOfFirst(x, '`', rest);
    assert s[1..|x| + 1] == x;
    assert s[|x| + 2..] == rest;
  }

  /** A dataset reference at the front of s: its dataverse ("" when none), the dataset, and what follows. */
  function ParseReference(s: string): Option<(string, string, string)>
  {
    match ParseQuoted(s)
    case None => None
    case Some((first, rest)) =>
      if ".`" <= rest then
        match ParseQuoted(rest[1..])
        case None => None
        case Some((second, rest2)) => Some((first, second, rest2))
      else Some(("", first, rest))
  }

  lemma {:induction false} ParseReferenceOf(dataverseName: string, datasetName: string, rest: string)
    requires '`' !in dataverseName && '`' !in datasetName
    requires !(".`" <= rest)
    ensures ParseReference(DatasetReference(dataverseName, datasetName) + rest) == Some((dataverseName, datasetName, rest))
  {
    if dataverseName == "" {
      assert DatasetReference(dataverseName, datasetName) + rest == "`" + datasetName + "`" + rest;
      ParseQuotedOf(datasetName, rest);
    } else {
      ParseQualifiedOf(dataverseName, datasetName, rest);
    }
  }

  lemma ParseQualifiedOf(dataverseName: string, datasetName: string, rest: string)
    requires '`' !in dataverseName && '`' !in datasetName && dataverseName != ""
    ensures ParseReference(DatasetReference(dataverseName, datasetName) + rest) == Some((dataverseName, datasetName, rest))
  {
    var second := "`" + datasetName + "`" + rest;
    var tail := "." + second;
    assert DatasetReference(dataverseName, datasetName) + rest == "`" + dataverseName + "`" + tail;
    ParseQuotedOf(dataverseName, tail);
    assert ".`" <= tail;
    assert tail[1..] == second;
    ParseQuotedOf(datasetName, rest);
  }

  // ---------------------------------------------------------------------
  // Statement parsers
  // ---------------------------------------------------------------------

  /** Whether s ends with the clause, and s without it. */
  function ClauseAtEnd(s: string, clause: string): (string, bool)
  {
    match StripSuffix(s, clause)
    case Some(before) => (before, true)
    case None => (s, false)
  }

  /** Whether s starts with the clause, and s without it. */
  function ClauseAtStart(s: string, clause: string): (bool, string)
  {
    match StripPrefix(s, clause)
    case Some(after) => (true, after)
    case None => (false, s)
  }

  /** An optional clause is found at the end exactly when it was put there, as long as a space precedes it. */
  lemma ClauseAtEndOf(x: string, clause: string, present: bool)
    requires |x| > 0 && x[|x| - 1] == ' ' && |clause| > 0 && clause[|clause| - 1] != ' '
    ensures ClauseAtEnd(x + (if present then clause else ""), clause) == (x, present)
  {
    if present {
      StripSuffixOf(x, clause);
    } else {
      assert x + "" == x;
      NotSuffix(x, clause);
    }
  }

  /** An optional clause is found at the start exactly when it was put there, as long as a space follows it. */
  lemma ClauseAtStartOf(clause: string, present: bool, x: string)
    requires |x| > 0 && x[0] == ' ' && |clause| > 0 && clause[0] != ' '
    ensures ClauseAtStart((if present then clause else "") + x, clause) == (present, x)
  {
    if present {
      StripPrefixOf(clause, x);
    } else {
      assert "" + x == x;
      assert !(clause <= x) by { assert x[0] != clause[0]; }
    }
  }

  /** The dataverse name and IgnoreIfExists flag of a CREATE DATAVERSE statement. */
  function ParseCreateDataverse(q: string): Option<(string, bool)>
  {
    match StripPrefix(q, "CREATE DATAVERSE `")
    case None => None
    case Some(body) =>
      var (quoted, ignore) := ClauseAtEnd(body, IfNotExists(true));
      match StripSuffix(quoted, "` ")
      case None => None
      case Some(name) => Some((name, ignore))
  }

  /** A CREATE DATAVERSE statement names the dataverse and says whether it may already exist. */
  lemma CreateDataverseRoundTrip(dataverseName: string, opts: Option<CreateDataverseOptions>)
    requires dataverseName != ""
    ensures CreateDataverse(dataverseName, opts).Ok?
    ensures ParseCreateDataverse(CreateDataverse(dataverseName, opts).value)
            == Some((dataverseName, OrElse(opts, DefaultCreateDataverse).ignoreIfExists))
  {
    var ignore := OrElse(opts, DefaultCreateDataverse).ignoreIfExists;
    var quoted := dataverseName + "` ";
    var body := quoted + IfNotExists(ignore);
    assert CreateDataverse(dataverseName, opts).value == "CREATE DATAVERSE `" + body;
    StripPrefixOf("CREATE DATAVERSE `", body);
    ClauseAtEndOf(quoted, IfNotExists(true), ignore);
    StripSuffixOf(dataverseName, "` ");
  }

  /** The dataverse name and IgnoreIfNotExists flag of a DROP DATAVERSE statement. */
  function ParseDropDataverse(q: string): Option<(string, bool)>
  {
    match StripPrefix(q, "DROP DATAVERSE ")
    case None => None
    case Some(body) =>
      var (spaced, ignore) := ClauseAtEnd(body, IfExists(true));
      match StripSuffix(spaced, " ")
      case None => None
      case Some(name) => Some((name, ignore))
  }

  /** A DROP DATAVERSE statement names the dataverse and says whether it may be missing. */
  lemma DropDataverseRoundTrip(dataverseName: string, opts: Option<DropDataverseOptions>)
    ensures ParseDropDataverse(DropDataverse(dataverseName, opts))
            == Some((dataverseName, OrElse(opts, DefaultDropDataverse).ignoreIfNotExists))
  {
    var ignore := OrElse(opts, DefaultDropDataverse).ignoreIfNotExists;
    var spaced := dataverseName + " ";
    var body := spaced + IfExists(ignore);
    assert DropDataverse(dataverseName, opts) == "DROP DATAVERSE " + body;
    StripPrefixOf("DROP DATAVERSE ", body);
    ClauseAtEndOf(spaced, IfExists(true), ignore);
    StripSuffixOf(dataverseName, " ");
  }

  /** The bucket and WHERE clause that end a CREATE DATASET statement, after the dataset reference. */
  function ParseOnBucket(s: string): Option<(string, string)>
  {
    match StripPrefix(s, " ON ")
    case None => None
    case Some(onPart) =>
      match ParseQuoted(onPart)
      case None => None
      case Some((bucketName, rest)) =>
        match StripPrefix(rest, " ")
        case None => None
        case Some(where) => Some((bucketName, where))
  }

  lemma ParseOnBucketOf(bucketName: string, where: string)
    requires '`' !in bucketName
    ensures ParseOnBucket(" ON `" + bucketName + "` " + where) == Some((bucketName, where))
  {
    var rest := " " + where;
    var onPart := "`" + bucketName + "`" + rest;
    assert " ON `" + bucketName + "` " + where == " ON " + onPart;
    StripPrefixOf(" ON ", onPart);
    ParseQuotedOf(bucketName, rest);
    StripPrefixOf(" ", where);
  }

  /** The flag, dataverse, dataset, bucket and WHERE clause of a CREATE DATASET statement. */
  function ParseCreateDataset(q: string): Option<(bool, string, string, string, string)>
  {
    match StripPrefix(q, "CREATE DATASET ")
    case None => None
    case Some(body) =>
      var (ignore, afterClause) := ClauseAtStart(body, IfNotExists(true));
      match StripPrefix(afterClause, " ")
      case None => None
      case Some(target) =>
        match ParseDatasetTarget(target)
        case None => None
        case Some((dataverseName, datasetName, bucketName, where)) =>
          Some((ignore, dataverseName, datasetName, bucketName, where))
  }

  /** What CREATE DATASET says after its clause: the dataset reference, the bucket and the WHERE clause. */
  function ParseDatasetTarget(s: string): Option<(string, string, string, string)>
  {
    match ParseReference(s)
    case None => None
    case Some((dataverseName, datasetName, rest)) =>
      match ParseOnBucket(rest)
      case None => None
      case Some((bucketName, where)) => Some((dataverseName, datasetName, bucketName, where))
  }

  lemma ParseDatasetTargetOf(dataverseName: string, datasetName: string, bucketName: string, where: string)
    requires '`' !in datasetName && '`' !in bucketName && '`' !in dataverseName
    ensures ParseDatasetTarget(DatasetReference(dataverseName, datasetName) + (" ON `" + bucketName + "` " + where))
            == Some((dataverseName, datasetName, bucketName, where))
  {
    var rest := " ON `" + bucketName + "` " + where;
    assert !(".`" <= rest) by { assert rest[0] == ' '; }
    ParseReferenceOf(dataverseName, datasetName, rest);
    ParseOnBucketOf(bucketName, where);
  }

  /**
   * A CREATE DATASET statement names the dataset within the dataverse the
   * options give (none when empty) and the bucket, says whether it may
   * already exist, and ends with the WHERE clause of the condition.
   */
  lemma CreateDatasetRoundTrip(datasetName: string, bucketName: string, opts: Option<CreateDatasetOptions>)
    requires datasetName != ""
    requires '`' !in datasetName && '`' !in bucketName && '`' !in OrElse(opts, DefaultCreateDataset).dataverseName
    ensures CreateDataset(datasetName, bucketName, opts).Ok?
    ensures
      var o := OrElse(opts, DefaultCreateDataset);
      ParseCreateDataset(CreateDataset(datasetName, bucketName, opts).value)
      == Some((o.ignoreIfExists, o.dataverseName, datasetName, bucketName, WhereClause(o.condition)))
  {
    var o := OrElse(opts, DefaultCreateDataset);
    StatementCarriesDataset(datasetName, bucketName, o.ignoreIfExists, o.dataverseName, WhereClause(o.condition));
  }

  /** The statement regrouped the way the parser takes it apart. */
  lemma DatasetTextShape(clause: string, reference: string, bucketName: string, where: string)
    ensures "CREATE DATASET " + clause + " " + reference + " ON `" + bucketName + "` " + where
            == "CREATE DATASET " + (clause + (" " + (reference + (" ON `" + bucketName + "` " + where))))
  {
  }

  /** The parts of a CREATE DATASET statement come back from the parser, whatever the WHERE clause. */
  lemma StatementCarriesDataset(datasetName: string, bucketName: string, ignore: bool, dataverseName: string, where: string)
    requires '`' !in datasetName && '`' !in bucketName && '`' !in dataverseName
    ensures
      var q := "CREATE DATASET " + IfNotExists(ignore) + " " + DatasetReference(dataverseName, datasetName)
               + " ON `" + bucketName + "` " + where;
      ParseCreateDataset(q) == Some((ignore, dataverseName, datasetName, bucketName, where))
  {
    var rest := " ON `" + bucketName + "` " + where;
    var target := DatasetReference(dataverseName, datasetName) + rest;
    var afterClause := " " + target;
    var body := IfNotExists(ignore) + afterClause;
    DatasetTextShape(IfNotExists(ignore), DatasetReference(dataverseName, datasetName), bucketName, where);
    StripPrefixOf("CREATE DATASET ", body);
    ClauseAtStartOf(IfNotExists(true), ignore, afterClause);
    StripPrefixOf(" ", target);
    ParseDatasetTargetOf(dataverseName, datasetName, bucketName, where);
  }

  /** The dataverse, dataset and IgnoreIfNotExists flag of a DROP DATASET statement. */
  function ParseDropDataset(q: string): Option<(string, string, bool)>
  {
    match StripPrefix(q, "DROP DATASET ")
    case None => None
    case Some(body) =>
      var (spaced, ignore) := ClauseAtEnd(body, IfExists(true));
      match StripSuffix(spaced, " ")
      case None => None
      case Some(reference) =>
        match ParseReference(reference)
        case Some((dataverseName, datasetName, "")) => Some((dataverseName, datasetName, ignore))
        case _ => None
  }

  /** A DROP DATASET statement names the dataset within its dataverse and says whether it may be missing. */
  lemma DropDatasetRoundTrip(datasetName: string, opts: Option<DropDatasetOptions>)
    requires '`' !in datasetName && '`' !in OrElse(opts, DefaultDropDataset).dataverseName
    ensures
      var o := OrElse(opts, DefaultDropDataset);
      ParseDropDataset(DropDataset(datasetName, opts)) == Some((o.dataverseName, datasetName, o.ignoreIfNotExists))
  {
    var o := OrElse(opts, DefaultDropDataset);
    var reference := DatasetReference(o.dataverseName, datasetName);
    var spaced := reference + " ";
    var body := spaced + IfExists(o.ignoreIfNotExists);
    assert DropDataset(datasetName, opts) == "DROP DATASET " + body;
    StripPrefixOf("DROP DATASET ", body);
    ClauseAtEndOf(spaced, IfExists(true), o.ignoreIfNotExists);
    StripSuffixOf(reference, " ");
    assert reference + "" == reference;
    ParseReferenceOf(o.dataverseName, datasetName, "");
  }

  /** The index, flag, dataverse, dataset and field list of a CREATE INDEX statement. */
  function ParseCreateIndex(q: string): Option<(string, bool, string, string, string)>
  {
    match StripPrefix(q, "CREATE INDEX ")
    case None => None
    case Some(body) =>
      match ParseQuoted(body)
      case None => None
      case Some((indexName, rest)) =>
        match StripPrefix(rest, " ")
        case None => None
        case Some(clausePart) =>
          var (ignore, afterClause) := ClauseAtStart(clausePart, IfNotExists(true));
          match StripPrefix(afterClause, " ON ")
          case None => None
          case Some(reference) =>
            match ParseReference(reference)
            case None => None
            case Some((dataverseName, datasetName, rest2)) =>
              match StripPrefix(rest2, " (")
              case None => None
              case Some(list) =>
                match StripSuffix(list, ")")
                case None => None
                case Some(fieldList) => Some((indexName, ignore, dataverseName, datasetName, fieldList))
  }

  /** The comma-separated parts of s. */
  function Split(s: string): (parts: seq<string>)
    ensures |parts| > 0
    decreases |s|
  {
    var i := IndexOf(s, ',');
    if i == |s| then [s] else [s[..i]] + Split(s[i + 1..])
  }

  lemma {:induction false} SplitJoin(parts: seq<string>)
    requires |parts| > 0
    requires forall k :: 0 <= k < |parts| ==> ',' !in parts[k]
    ensures Split(Join(parts)) == parts
  {
    if |parts| > 1 {
      var tail := parts[1..];
      assert forall k :: 0 <= k < |tail| ==> ',' !in tail[k] by {
        forall k | 0 <= k < |tail| ensures ',' !in tail[k] {
          assert tail[k] == parts[k + 1];
        }
      }
      SplitJoin(tail);
      SplitAtFirstComma(parts[0], Join(tail));
      assert Join(parts) == parts[0] + [','] + Join(tail);
      assert parts == [parts[0]] + tail;
    }
  }

  lemma SplitAtFirstComma(first: string, rest: string)
    requires ',' !in first
    ensures Split(first + [','] + rest) == [first] + Split(rest)
  {
    var s := first + [','] + rest;
    IndexOfFirst(first, ',', rest);
    assert s[..|first|] == first;
    assert s[|first| + 1..] == rest;
  }

  /** The name and type of one "name:type" entry: the name ends at the first colon. */
  function ParseFieldSpec(spec: string): (string, string)
  {
    var i := IndexOf(spec, ':');
    (spec[..i], if i < |spec| then spec[i + 1..] else "")
  }

  /** The field map a list of "name:type" entries describes. */
  function FieldMap(specs: seq<string>): map<string, string>
  {
    if |specs| == 0 then map[]
    else FieldMap(specs[1..])[ParseFieldSpec(specs[0]).0 := ParseFieldSpec(specs[0]).1]
  }

  lemma ParseFieldSpecOf(name: string, typ: string)
    requires ':' !in name
    ensures ParseFieldSpec(name + ":" + typ) == (name, typ)
  {
    IndexOfFirst(name, ':', typ);
    var s := name + [':'] + typ;
    assert name + ":" + typ == s;
    assert s[..|name|] == name;
    assert s[|name| + 1..] == typ;
  }

  /** A field name and type that the field list can carry unambiguously. */
  predicate PlainField(name: string, typ: string)
  {
    ':' !in name && ',' !in name && ',' !in typ
  }

  lemma {:induction false} FieldMapOfSpecs(fields: map<string, string>, order: seq<string>)
    requires forall k :: k in order ==> k in fields && PlainField(k, fields[k])
    ensures FieldMap(FieldSpecs(fields, order)) == map k | k in order :: fields[k]
  {
    if |order| > 0 {
      var specs := FieldSpecs(fields, order);
      assert specs[1..] == FieldSpecs(fields, order[1..]);
      FieldMapOfSpecs(fields, order[1..]);
      ParseFieldSpecOf(order[0], fields[order[0]]);
      assert forall k :: k in order <==> k == order[0] || k in order[1..];
    }
  }

  lemma FieldSpecsPlain(fields: map<string, string>, order: seq<string>)
    requires forall k :: k in order ==> k in fields && PlainField(k, fields[k])
    ensures forall i :: 0 <= i < |order| ==> ',' !in FieldSpecs(fields, order)[i]
  {
    forall i | 0 <= i < |order|
      ensures ',' !in FieldSpecs(fields, order)[i]
    {
      var k := order[i];
      assert FieldSpecs(fields, order)[i] == k + ":" + fields[k];
    }
  }

  /**
   * A CREATE INDEX statement names the index and the dataset within its
   * dataverse, says whether the index may already exist, and its field
   * list describes exactly the field map, in whatever order it was visited.
   */
  lemma CreateIndexRoundTrip(datasetName: string, indexName: string, fields: map<string, string>,
                             opts: Option<CreateIndexOptions>, order: seq<string>)
    requires IsOrdering(order, fields)
    requires indexName != "" && |fields| > 0
    requires '`' !in indexName && '`' !in datasetName && '`' !in OrElse(opts, DefaultCreateIndex).dataverseName
    requires forall k :: k in fields ==> PlainField(k, fields[k])
    ensures CreateIndexInOrder(datasetName, indexName, fields, opts, order).Ok?
    ensures
      var o := OrElse(opts, DefaultCreateIndex);
      var parsed := ParseCreateIndex(CreateIndexInOrder(datasetName, indexName, fields, opts, order).value);
      parsed.Some?
      && parsed.value.0 == indexName && parsed.value.1 == o.ignoreIfExists
      && parsed.value.2 == o.dataverseName && parsed.value.3 == datasetName
      && FieldMap(Split(parsed.value.4)) == fields
  {
    var o := OrElse(opts, DefaultCreateIndex);
    var list := Join(FieldSpecs(fields, order));
    StatementCarriesIndex(datasetName, indexName, list, o);
    assert |order| > 0 by {
      var k :| k in fields;
      assert k in order;
    }
    FieldSpecsPlain(fields, order);
    SplitJoin(FieldSpecs(fields, order));
    FieldMapOfSpecs(fields, order);
    OrderingCovers(fields, order);
  }

  lemma OrderingCovers(fields: map<string, string>, order: seq<string>)
    requires IsOrdering(order, fields)
    ensures (map k | k in order :: fields[k]) == fields
  {
  }

  lemma IndexTextShape(indexName: string, clause: string, reference: string, list: string)
    ensures "CREATE INDEX `" + indexName + "` " + clause + " ON " + reference + " (" + list + ")"
            == "CREATE INDEX " + ("`" + indexName + "`" + (" " + (clause + (" ON " + (reference + (" (" + (list + ")")))))))
  {
  }

  /** The text parts of a CREATE INDEX statement come back from the parser, whatever the field list. */
  lemma StatementCarriesIndex(datasetName: string, indexName: string, list: string, o: CreateIndexOptions)
    requires '`' !in indexName && '`' !in datasetName && '`' !in o.dataverseName
    ensures
      var q := "CREATE INDEX `" + indexName + "` " + IfNotExists(o.ignoreIfExists) + " ON "
               + DatasetReference(o.dataverseName, datasetName) + " (" + list + ")";
      ParseCreateIndex(q) == Some((indexName, o.ignoreIfExists, o.dataverseName, datasetName, list))
  {
    var rest2 := " (" + (list + ")");
    var reference := DatasetReference(o.dataverseName, datasetName) + rest2;
    var afterClause := " ON " + reference;
    var clausePart := IfNotExists(o.ignoreIfExists) + afterClause;
    var rest := " " + clausePart;
    var body := "`" + indexName + "`" + rest;
    IndexTextShape(indexName, IfNotExists(o.ignoreIfExists), DatasetReference(o.dataverseName, datasetName), list);
    StripPrefixOf("CREATE INDEX ", body);
    ParseQuotedOf(indexName, rest);
    StripPrefixOf(" ", clausePart);
    ClauseAtStartOf(IfNotExists(true), o.ignoreIfExists, afterClause);
    StripPrefixOf(" ON ", reference);
    assert !(".`" <= rest2) by { assert rest2[0] == ' '; }
    ParseReferenceOf(o.dataverseName, datasetName, rest2);
    StripPrefixOf(" (", list + ")");
    StripSuffixOf(list, ")");
  }

  /** The dataverse, dataset, index and IgnoreIfNotExists flag of a DROP INDEX statement. */
  function ParseDropIndex(q: string): Option<(string, string, string, bool)>
  {
    match StripPrefix(q, "DROP INDEX ")
    case None => None
    case Some(body) =>
      match ParseReference(body)
      case None => None
      case Some((dataverseName, datasetName, rest)) =>
        match StripPrefix(rest, ".")
        case None => None
        case Some(tail) =>
          match ParseIndexTail(tail)
          case None => None
          case Some((indexName, ignore)) => Some((dataverseName, datasetName, indexName, ignore))
  }

  /** The index name and IgnoreIfNotExists flag that end a DROP INDEX statement. */
  function ParseIndexTail(tail: string): Option<(string, bool)>
  {
    var (spaced, ignore) := ClauseAtEnd(tail, IfExists(true));
    match StripSuffix(spaced, " ")
    case None => None
    case Some(indexName) => Some((indexName, ignore))
  }

  /** A DROP INDEX statement names the index of the dataset within its dataverse and says whether it may be missing. */
  lemma DropIndexRoundTrip(datasetName: string, indexName: string, opts: Option<DropIndexOptions>)
    requires '`' !in datasetName && '`' !in indexName && '`' !in OrElse(opts, DefaultDropIndex).dataverseName
    ensures
      var o := OrElse(opts, DefaultDropIndex);
      ParseDropIndex(DropIndex(datasetName, indexName, opts))
      == Some((o.dataverseName, datasetName, indexName, o.ignoreIfNotExists))
  {
    var o := OrElse(opts, DefaultDropIndex);
    var tail := indexName + " " + IfExists(o.ignoreIfNotExists);
    var body := DatasetReference(o.dataverseName, datasetName) + ("." + tail);
    assert DropIndex(datasetName, indexName, opts) == "DROP INDEX " + body;
    StripPrefixOf("DROP INDEX ", body);
    IndexAfterReference(o.dataverseName, datasetName, indexName, tail);
    IndexTail(indexName, o.ignoreIfNotExists);
  }

  /** After the dataset reference, DROP INDEX has a dot and the unquoted index name. */
  lemma IndexAfterReference(dataverseName: string, datasetName: string, indexName: string, tail: string)
    requires '`' !in datasetName && '`' !in indexName && '`' !in dataverseName
    requires indexName <= tail && (|indexName| == 0 ==> |tail| > 0 && tail[0] == ' ')
    ensures ParseReference(DatasetReference(dataverseName, datasetName) + ("." + tail))
            == Some((dataverseName, datasetName, "." + tail))
    ensures StripPrefix("." + tail, ".") == Some(tail)
  {
    var rest := "." + tail;
    assert !(".`" <= rest) by {
      if |indexName| > 0 {
        assert rest[1] == indexName[0];
        assert indexName[0] in indexName;
      } else {
        assert rest[1] == ' ';
      }
    }
    ParseReferenceOf(dataverseName, datasetName, rest);
    StripPrefixOf(".", tail);
  }

  /** The end of DROP INDEX gives back the index name and the IgnoreIfNotExists flag. */
  lemma IndexTail(indexName: string, ignore: bool)
    ensures ParseIndexTail(indexName + " " + IfExists(ignore)) == Some((indexName, ignore))
  {
    var spaced := indexName + " ";
    ClauseAtEndOf(spaced, IfExists(true), ignore);
    StripSuffixOf(indexName, " ");
  }

  /** The link named by a CONNECT or DISCONNECT LINK statement. */
  function ParseLink(q: string): Option<(bool, string)>
  {
    match StripPrefix(q, "CONNECT LINK ")
    case Some(name) => Some((true, name))
    case None =>
      match StripPrefix(q, "DISCONNECT LINK ")
      case Some(name) => Some((false, name))
      case None => None
  }

  /** The statement of a link operation says which one it is and names the link, never an empty one. */
  lemma LinkRoundTrip(connect: bool, given: string)
    ensures
      var q := (if connect then "CONNECT LINK " else "DISCONNECT LINK ") + LinkTarget(given);
      ParseLink(q) == Some((connect, LinkTarget(given))) && ParseLink(q).value.1 != ""
  {
    if connect {
      StripPrefixOf("CONNECT LINK ", LinkTarget(given));
    } else {
      var q := "DISCONNECT LINK " + LinkTarget(given);
      assert !("CONNECT LINK " <= q) by { assert q[0] == 'D'; }
      StripPrefixOf("DISCONNECT LINK ", LinkTarget(given));
    }
  }
}

=== FILE: bins.dfy ===
/**
 * Bin selection of the latency histogram, stated over exact rationals.
 *
 * A histogram has a shape (maxValue, startValue, commonRatio). Bin i, for
 * 1 <= i <= K, covers the values in (startValue * ratio^(i-1), startValue * ratio^i];
 * bin 0 covers the values at or below startValue, and the last bin, K + 1,
 * covers the values above maxValue. K is ceil(log(maxValue/startValue) / log(ratio)),
 * that is, the least k with startValue * ratio^k >= maxValue.
 */
module Bins {

  /** r raised to the n-th power. */
  function Pow(r: real, n: nat): real
  {
    if n == 0 then 1.0 else r * Pow(r, n - 1)
  }

  /** The three shape parameters fixed when a histogram is created. */
  datatype Shape = Shape(maxValue: real, startValue: real, commonRatio: real)
  {
    predicate Valid()
    {
      0.0 < startValue <= maxValue && 1.0 < commonRatio
    }

    /** The inclusive upper end of bin i (for i below the overflow bin). */
    function UpperBound(i: nat): real
    {
      startValue * Pow(commonRatio, i)
    }
  }

  /** The shape every per-peer value recorder uses: up to 2 s in microseconds. */
  const RecorderShape := Shape(2000000.0, 1000.0, 1.5)

  lemma MulNonneg(a: real, b: real)
    requires 0.0 <= a && 0.0 <= b
    ensures 0.0 <= a * b
  {
  }

  lemma MulMonotone(a: real, b: real, c: real)
    requires 0.0 <= a && b <= c
    ensures a * b <= a * c
  {
    MulNonneg(a, c - b);
    assert a * c - a * b == a * (c - b);
  }

  lemma MulStrict(a: real, b: real, c: real)
    requires 0.0 < a && b < c
    ensures a * b < a * c
  {
    assert a * c - a * b == a * (c - b);
  }

  lemma DivPositive(a: real, b: real)
    requires 0.0 < a && 0.0 < b
    ensures 0.0 < a / b && (a / b) * b == a
  {
    if a / b <= 0.0 {
      MulMonotone(b, a / b, 0.0);
    }
  }

  lemma DivAboveOne(v: real, s: real)
    requires 0.0 < s < v
    ensures v / s > 1.0 && (v / s) * s == v
  {
    DivPositive(v, s);
    if v / s <= 1.0 {
      MulMonotone(s, v / s, 1.0);
    }
  }

  lemma {:induction false} PowAtLeastOne(r: real, n: nat)
    requires 1.0 <= r
    ensures 1.0 <= Pow(r, n)
  {
    if n > 0 {
      PowAtLeastOne(r, n - 1);
      MulMonotone(Pow(r, n - 1), 1.0, r);
    }
  }

  lemma {:induction false} PowMonotone(r: real, m: nat, n: nat)
    requires 1.0 <= r && m <= n
    ensures Pow(r, m) <= Pow(r, n)
  {
    if m < n {
      PowMonotone(r, m, n - 1);
      PowAtLeastOne(r, n - 1);
      MulMonotone(Pow(r, n - 1), 1.0, r);
    }
  }

  /** Bernoulli's inequality: ratio^n grows at least linearly in n. */
  lemma {:induction false} Bernoulli(r: real, n: nat)
    requires 1.0 <= r
    ensures Pow(r, n) >= 1.0 + (n as real) * (r - 1.0)
  {
    if n > 0 {
      Bernoulli(r, n - 1);
      var x := Pow(r, n - 1);
      var m := (n - 1) as real;
      MulMonotone(r, 1.0 + m * (r - 1.0), x);
      MulNonneg(m * (r - 1.0), r - 1.0);
      assert r * (1.0 + m * (r - 1.0)) - (1.0 + (m + 1.0) * (r - 1.0)) == m * (r - 1.0) * (r - 1.0);
    }
  }

  /** A number of steps after which startValue * ratio^k is certain to reach v. */
  function SearchLimit(s: Shape, v: real): nat
    requires s.Valid()
  {
    if v <= s.startValue then 0
    else
      DivAboveOne(v, s.startValue);
      DivPositive(v / s.startValue - 1.0, s.commonRatio - 1.0);
      ((v / s.startValue - 1.0) / (s.commonRatio - 1.0)).Floor + 1
  }

  /** Once k exceeds (q - 1) / (r - 1), ratio^k exceeds q. */
  lemma PowExceeds(r: real, k: nat, x: real, q: real)
    requires 1.0 < r && x * (r - 1.0) == q - 1.0 && x < k as real
    ensures Pow(r, k) > q
  {
    Bernoulli(r, k);
    MulStrict(r - 1.0, x, k as real);
    assert (r - 1.0) * x == x * (r - 1.0);
    assert (r - 1.0) * (k as real) == (k as real) * (r - 1.0);
  }

  lemma LimitCovers(s: Shape, v: real)
    requires s.Valid()
    ensures s.UpperBound(SearchLimit(s, v)) >= v
  {
    var r := s.commonRatio;
    var k := SearchLimit(s, v);
    if v <= s.startValue {
      assert Pow(r, 0) == 1.0;
    } else {
      DivAboveOne(v, s.startValue);
      var q := v / s.startValue;
      DivPositive(q - 1.0, r - 1.0);
      var x := (q - 1.0) / (r - 1.0);
      assert k as real > x;
      PowExceeds(r, k, x, q);
      MulStrict(s.startValue, q, Pow(r, k));
    }
  }

  /** The least k in [from, limit] whose bin reaches v. */
  function CoverFrom(s: Shape, v: real, from: nat, limit: nat): (k: nat)
    requires s.Valid() && from <= limit && s.UpperBound(limit) >= v
    ensures from <= k <= limit && s.UpperBound(k) >= v
    ensures forall j: nat :: from <= j < k ==> s.UpperBound(j) < v
    decreases limit - from
  {
    if s.UpperBound(from) >= v then from else CoverFrom(s, v, from + 1, limit)
  }

  /**
   * The least k with startValue * ratio^k >= v: the exact value of
   * ceil(log(v / startValue) / log(ratio)) when v > startValue.
   */
  function LeastCover(s: Shape, v: real): (k: nat)
    requires s.Valid()
    ensures s.UpperBound(k) >= v
    ensures forall j: nat :: j < k ==> s.UpperBound(j) < v
  {
    LimitCovers(s, v);
    CoverFrom(s, v, 0, SearchLimit(s, v))
  }

  /** Number of bins: ceil(log(maxValue / startValue) / log(ratio)) + 2. */
  function BinCount(s: Shape): nat
    requires s.Valid()
  {
    LeastCover(s, s.maxValue) + 2
  }

  lemma LeastCoverMonotone(s: Shape, v: real, w: real)
    requires s.Valid() && v <= w
    ensures LeastCover(s, v) <= LeastCover(s, w)
  {
  }

  /**
   * The bin a value goes into: the last bin above maxValue, bin 0 at or
   * below startValue, and otherwise the bin whose range (startValue * ratio^(b-1),
   * startValue * ratio^b] holds the value.
   */
  function BinFor(s: Shape, v: nat): (b: nat)
    requires s.Valid()
    ensures b < BinCount(s)
    ensures v as real > s.maxValue ==> b == BinCount(s) - 1
    ensures v as real <= s.startValue ==> b == 0
    ensures s.startValue < v as real <= s.maxValue ==>
              1 <= b <= BinCount(s) - 2 && s.UpperBound(b - 1) < v as real <= s.UpperBound(b)
  {
    if v as real > s.maxValue then BinCount(s) - 1
    else if v as real <= s.startValue then 0
    else
      LeastCoverMonotone(s, v as real, s.maxValue);
      assert s.UpperBound(0) == s.startValue;
      LeastCover(s, v as real)
  }

  /** A larger value never goes into a lower bin. */
  lemma BinForMonotone(s: Shape, v: nat, w: nat)
    requires s.Valid() && v <= w
    ensures BinFor(s, v) <= BinFor(s, w)
  {
    if s.startValue < v as real && w as real <= s.maxValue {
      LeastCoverMonotone(s, v as real, w as real);
    }
  }

  /** Exactly the values above maxValue go into the last (overflow) bin. */
  lemma OverflowBinExactly(s: Shape, v: nat)
    requires s.Valid()
    ensures BinFor(s, v) == BinCount(s) - 1 <==> v as real > s.maxValue
  {
  }

  /**
   * Every value in a bin below the overflow bin is at most that bin's upper
   * end, and so at most the upper end of every later bin.
   */
  lemma UpperBoundMonotone(s: Shape, i: nat, j: nat)
    requires s.Valid() && i <= j
    ensures s.UpperBound(i) <= s.UpperBound(j)
  {
    PowMonotone(s.commonRatio, i, j);
    MulMonotone(s.startValue, Pow(s.commonRatio, i), Pow(s.commonRatio, j));
  }

  lemma BinUpperBoundSound(s: Shape, v: nat, i: nat)
    requires s.Valid() && BinFor(s, v) <= i <= BinCount(s) - 2
    ensures v as real <= s.UpperBound(i)
  {
    var b := BinFor(s, v);
    assert v as real <= s.UpperBound(b) by {
      assert Pow(s.commonRatio, 0) == 1.0;
    }
    UpperBoundMonotone(s, b, i);
  }

  /**
   * A value at or below the upper end of a bin that is not the last regular
   * bin goes into that bin or an earlier one.
   */
  lemma {:induction false} BinUpperBoundComplete(s: Shape, v: nat, i: nat)
    requires s.Valid() && i < BinCount(s) - 2 && v as real <= s.UpperBound(i)
    ensures BinFor(s, v) <= i
  {
    var k := BinCount(s) - 2;
    assert s.UpperBound(i) < s.maxValue;
    if v as real > s.startValue {
      assert !(s.UpperBound(i) < v as real);
    }
  }

  /** The recorder shape has 21 bins: ceil(log(2000) / log(1.5)) + 2. */
  lemma RecorderBinCount()
    ensures BinCount(RecorderShape) == 21
    ensures RecorderShape.UpperBound(19) == 1000.0 * 1162261467.0 / 524288.0
  {
    var s := RecorderShape;
    assert Pow(1.5, 1) == 3.0 / 2.0;
    assert Pow(1.5, 2) == 9.0 / 4.0;
    assert Pow(1.5, 3) == 27.0 / 8.0;
    assert Pow(1.5, 4) == 81.0 / 16.0;
    assert Pow(1.5, 5) == 243.0 / 32.0;
    assert Pow(1.5, 6) == 729.0 / 64.0;
    assert Pow(1.5, 7) == 2187.0 / 128.0;
    assert Pow(1.5, 8) == 6561.0 / 256.0;
    assert Pow(1.5, 9) == 19683.0 / 512.0;
    assert Pow(1.5, 10) == 59049.0 / 1024.0;
    assert Pow(1.5, 11) == 177147.0 / 2048.0;
    assert Pow(1.5, 12) == 531441.0 / 4096.0;
    assert Pow(1.5, 13) == 1594323.0 / 8192.0;
    assert Pow(1.5, 14) == 4782969.0 / 16384.0;
    assert Pow(1.5, 15) == 14348907.0 / 32768.0;
    assert Pow(1.5, 16) == 43046721.0 / 65536.0;
    assert Pow(1.5, 17) == 129140163.0 / 131072.0;
    assert Pow(1.5, 18) == 387420489.0 / 262144.0;
    assert Pow(1.5, 19) == 1162261467.0 / 524288.0;
    var k := LeastCover(s, s.maxValue);
    assert s.UpperBound(19) >= s.maxValue;
    assert s.UpperBound(18) < s.maxValue;
    assert k == 19;
  }
}

=== FILE: counts.dfy ===
/** Totals and prefix sums of per-bin counts. */
module Counts {

  /** The total of a sequence of counts, accumulated from the front. */
  function Sum(s: seq<nat>): nat
  {
    if |s| == 0 then 0 else Sum(s[..|s| - 1]) + s[|s| - 1]
  }

  /** Entry i is the count of bins 0..i: the cumulative view of a histogram. */
  function PrefixSums(s: seq<nat>): (p: seq<nat>)
    ensures |p| == |s|
  {
    seq(|s|, i requires 0 <= i < |s| => Sum(s[..i + 1]))
  }

  /** All-zero counts of the given length. */
  function Zeros(n: nat): (z: seq<nat>)
    ensures |z| == n
  {
    seq(n, _ => 0)
  }

  /** Recovers the per-bin counts from cumulative counts. */
  function Differences(p: seq<nat>): (d: seq<int>)
    ensures |d| == |p|
  {
    seq(|p|, i requires 0 <= i < |p| => if i == 0 then p[0] as int else p[i] as int - p[i - 1] as int)
  }

  lemma SumStep(s: seq<nat>, i: nat)
    requires i < |s|
    ensures Sum(s[..i + 1]) == Sum(s[..i]) + s[i]
  {
    assert s[..i + 1][..i] == s[..i];
  }

  lemma {:induction false} SumOfZeros(s: seq<nat>)
    requires forall i :: 0 <= i < |s| ==> s[i] == 0
    ensures Sum(s) == 0
  {
    if |s| > 0 {
      SumOfZeros(s[..|s| - 1]);
    }
  }

  /** A prefix never totals more than the whole. */
  lemma {:induction false} SumPrefixBelow(s: seq<nat>, k: nat)
    requires k <= |s|
    ensures Sum(s[..k]) <= Sum(s)
  {
    if k < |s| {
      SumPrefixBelow(s[..|s| - 1], k);
      assert s[..|s| - 1][..k] == s[..k];
    } else {
      assert s[..k] == s;
    }
  }

  /** Adding one to a single entry adds one to the total. */
  lemma {:induction false} SumIncrement(s: seq<nat>, i: nat)
    requires i < |s|
    ensures Sum(s[i := s[i] + 1]) == Sum(s) + 1
  {
    var t := s[i := s[i] + 1];
    var n := |s| - 1;
    assert t[..n] == if i < n then s[..n][i := s[i] + 1] else s[..n];
    if i < n {
      SumIncrement(s[..n], i);
    }
  }

  /** Cumulative counts never decrease. */
  lemma PrefixSumsNonDecreasing(s: seq<nat>, i: nat, j: nat)
    requires i <= j < |s|
    ensures PrefixSums(s)[i] <= PrefixSums(s)[j]
  {
    SumPrefixBelow(s[..j + 1], i + 1);
    assert s[..j + 1][..i + 1] == s[..i + 1];
  }

  /** The last cumulative count is the total. */
  lemma PrefixSumsLast(s: seq<nat>)
    requires |s| > 0
    ensures PrefixSums(s)[|s| - 1] == Sum(s)
  {
    assert s[..|s|] == s;
  }

  /** The cumulative view loses nothing: differencing it gives back the counts. */
  lemma PrefixSumsRoundTrip(s: seq<nat>)
    ensures Differences(PrefixSums(s)) == s
  {
    var p := PrefixSums(s);
    forall i | 0 <= i < |s|
      ensures Differences(p)[i] == s[i]
    {
      SumStep(s, i);
      if i == 0 {
        assert s[..0] == [];
      }
    }
  }

  /** Once the cumulative count reaches the total, every later bin is empty. */
  lemma EmptyAfterFull(s: seq<nat>, i: nat, j: nat)
    requires i < j < |s| && PrefixSums(s)[i] >= Sum(s)
    ensures s[j] == 0
  {
    SumStep(s, j);
    PrefixSumsNonDecreasing(s, i, j - 1);
    assert Sum(s[..j]) >= Sum(s);
    SumPrefixBelow(s, j + 1);
  }

  /**
   * The first index whose cumulative count reaches the total is at or after
   * every non-empty bin, and is itself non-empty when anything was counted.
   */
  lemma FirstFullIndexIsLastNonEmpty(s: seq<nat>, i: nat)
    requires i < |s| && PrefixSums(s)[i] >= Sum(s)
    requires i > 0 ==> PrefixSums(s)[i - 1] < Sum(s)
    ensures forall j :: i < j < |s| ==> s[j] == 0
    ensures Sum(s) > 0 ==> s[i] > 0
  {
    forall j | i < j < |s|
      ensures s[j] == 0
    {
      EmptyAfterFull(s, i, j);
    }
    SumStep(s, i);
    if i == 0 {
      assert s[..0] == [];
    }
  }
}

=== FILE: error_status.dfy ===
/**
 * Mapping a gRPC status returned by the protostellar protocol to the SDK's
 * error: a base error chosen from the status code and its first detail, and
 * a context describing the status.
 */
module ErrorStatus {
  import opened Wrappers

  /** A code number outside the named gRPC codes 0 to 16. */
  type UnnamedCode = n: nat | n > 16 witness 17

  /** The gRPC status codes: the named codes 0 to 16, and any other number a status may carry. */
  datatype Code =
    | OK | Canceled | Unknown | InvalidArgument | DeadlineExceeded | NotFound | AlreadyExists
    | PermissionDenied | ResourceExhausted | FailedPrecondition | Aborted | OutOfRange
    | Unimplemented | Internal | Unavailable | DataLoss | Unauthenticated
    | OtherCode(number: UnnamedCode)

  /** One violation of a precondition failure; only its type is inspected. */
  datatype Violation = Violation(violationType: string, subject: string, description: string)

  /** The status details the mapping distinguishes; every other detail type is Other. */
  datatype Detail =
    | PreconditionFailure(violations: seq<Violation>)
    | ResourceInfo(resourceType: string, resourceName: string)
    | Other

  datatype Status = Status(code: Code, message: string, details: seq<Detail>)

  /** The SDK's sentinel errors the mapping can choose. */
  datatype ErrorKind =
    | CasMismatch | DocumentLocked | PathMismatch | DocumentNotJSON | ValueTooDeep | ValueInvalid
    | DocumentNotFound | IndexNotFound | BucketNotFound | ScopeNotFound | CollectionNotFound | PathNotFound
    | DocumentExists | IndexExists | BucketExists | ScopeExists | CollectionExists | PathExists
    | RequestCanceled | InternalServerFailure | InvalidArgument | UnambiguousTimeout | AmbiguousTimeout
    | AuthenticationFailure | FeatureNotAvailable | ServiceNotAvailable

  /**
   * A base error: a sentinel, a sentinel wrapped with a message, the status
   * itself as an error, or none at all (a status with code OK is no error).
   */
  datatype BaseError =
    | Sentinel(kind: ErrorKind)
    | Wrapped(kind: ErrorKind, message: string)
    | StatusError(code: Code, message: string)
    | NoBaseError

  datatype ContextValue = Text(text: string) | Count(count: nat)

  /** The generic error handed back: the base error and its context. */
  datatype GenericError = GenericError(base: BaseError, context: map<string, ContextValue>)

  /** The message wrapped around an authentication failure. */
  const PermissionDeniedMessage := "server reported that permission to the resource was denied"

  /** The error a precondition violation type stands for, if it is one of the six known types. */
  function PreconditionError(violationType: string): Option<ErrorKind>
  {
    if violationType == "CAS" then Some(CasMismatch)
    else if violationType == "LOCKED" then Some(DocumentLocked)
    else if violationType == "PATH_MISMATCH" then Some(PathMismatch)
    else if violationType == "DOC_NOT_JSON" then Some(DocumentNotJSON)
    else if violationType == "DOC_TOO_DEEP" then Some(ValueTooDeep)
    else if violationType == "WOULD_INVALIDATE_JSON" then Some(ValueInvalid)
    else None
  }

  /** The not-found error for a resource type, if the type is known. */
  function NotFoundError(resourceType: string): Option<ErrorKind>
  {
    if resourceType == "document" then Some(DocumentNotFound)
    else if resourceType == "index" then Some(IndexNotFound)
    else if resourceType == "searchindex" then Some(IndexNotFound)
    else if resourceType == "bucket" then Some(BucketNotFound)
    else if resourceType == "scope" then Some(ScopeNotFound)
    else if resourceType == "collection" then Some(CollectionNotFound)
    else if resourceType == "path" then Some(PathNotFound)
    else None
  }

  /** The already-exists error for a resource type, if the type is known. */
  function ExistsError(resourceType: string): Option<ErrorKind>
  {
    if resourceType == "document" then Some(DocumentExists)
    else if resourceType == "index" then Some(IndexExists)
    else if resourceType == "searchindex" then Some(IndexExists)
    else if resourceType == "bucket" then Some(BucketExists)
    else if resourceType == "scope" then Some(ScopeExists)
    else if resourceType == "collection" then Some(CollectionExists)
    else if resourceType == "path" then Some(PathExists)
    else None
  }

  /** The error the first detail decides, if it decides one. */
  function DetailError(code: Code, detail: Detail): Option<ErrorKind>
  {
    match detail
    case PreconditionFailure(violations) =>
      if |violations| > 0 then PreconditionError(violations[0].violationType) else None
    case ResourceInfo(resourceType, _) =>
      if code == NotFound then NotFoundError(resourceType)
      else if code == AlreadyExists then ExistsError(resourceType)
      else None
    case Other => None
  }

  /** The error the status code alone decides. */
  function CodeError(code: Code, message: string, readOnly: bool): BaseError
  {
    match code
    case Canceled => Sentinel(RequestCanceled)
    case Aborted => Sentinel(InternalServerFailure)
    case Unknown => Sentinel(InternalServerFailure)
    case Internal => Sentinel(InternalServerFailure)
    case OutOfRange => Sentinel(ErrorKind.InvalidArgument)
    case InvalidArgument => Sentinel(ErrorKind.InvalidArgument)
    case DeadlineExceeded => if readOnly then Sentinel(UnambiguousTimeout) else Sentinel(AmbiguousTimeout)
    case NotFound => Sentinel(DocumentNotFound)
    case AlreadyExists => Sentinel(DocumentExists)
    case Unauthenticated => Wrapped(AuthenticationFailure, PermissionDeniedMessage)
    case PermissionDenied => Wrapped(AuthenticationFailure, PermissionDeniedMessage)
    case Unimplemented => Wrapped(FeatureNotAvailable, message)
    case Unavailable => Sentinel(ServiceNotAvailable)
    case OK => NoBaseError
    case _ => StatusError(code, message)
  }

  /** The context of the error: the server message, the number of details, and a first resource detail's name and type. */
  function StatusContext(st: Status): map<string, ContextValue>
  {
    var context := map["server" := Text(st.message), "details" := Count(|st.details|)];
    if |st.details| > 0 && st.details[0].ResourceInfo? then
      context["resource_name" := Text(st.details[0].resourceName)]["resource_type" := Text(st.details[0].resourceType)]
    else context
  }

  /** mapPsErrorStatusToGocbError: the first detail's error if it decides one, else the code's. */
  function MapStatus(st: Status, readOnly: bool): (e: GenericError)
    ensures |st.details| > 0 && DetailError(st.code, st.details[0]).Some? ==>
              e.base == Sentinel(DetailError(st.code, st.details[0]).value)
    ensures e.base.StatusError? ==> e.base == StatusError(st.code, st.message)
    ensures e.base.Wrapped? ==> st.code in {Unauthenticated, PermissionDenied, Unimplemented}
    ensures e.base.NoBaseError? ==> st.code == OK
    ensures "server" in e.context && e.context["server"] == Text(st.message)
  {
    var base :=
      if |st.details| > 0 && DetailError(st.code, st.details[0]).Some? then Sentinel(DetailError(st.code, st.details[0]).value)
      else CodeError(st.code, st.message, readOnly);
    GenericError(base, StatusContext(st))
  }

  // Properties of the mapping.

  /**
   * The context always carries the server message and the number of details,
   * and carries the resource name and type exactly when the first detail is
   * resource information; nothing else.
   */
  lemma ContextContents(st: Status, readOnly: bool)
    ensures var c := MapStatus(st, readOnly).context;
            && "server" in c && c["server"] == Text(st.message)
            && "details" in c && c["details"] == Count(|st.details|)
            && (("resource_name" in c || "resource_type" in c) <==> |st.details| > 0 && st.details[0].ResourceInfo?)
            && (|st.details| > 0 && st.details[0].ResourceInfo? ==>
                  c["resource_name"] == Text(st.details[0].resourceName)
                  && c["resource_type"] == Text(st.details[0].resourceType))
            && c.Keys <= {"server", "details", "resource_name", "resource_type"}
  {
  }

  /** Only the first detail is inspected: the details after it change neither the error nor the context. */
  lemma OnlyFirstDetail(code: Code, message: string, first: Detail, rest: seq<Detail>, rest': seq<Detail>, readOnly: bool)
    requires |rest| == |rest'|
    ensures MapStatus(Status(code, message, [first] + rest), readOnly)
         == MapStatus(Status(code, message, [first] + rest'), readOnly)
  {
    assert ([first] + rest)[0] == ([first] + rest')[0];
  }

  /** A first detail that decides nothing gives the error of a status with no details at all. */
  lemma UndecidedDetailFallsThrough(st: Status, readOnly: bool)
    requires |st.details| > 0 && DetailError(st.code, st.details[0]).None?
    ensures MapStatus(st, readOnly).base == MapStatus(Status(st.code, st.message, []), readOnly).base
  {
  }

  /** A first precondition violation of a known type decides the error whatever the code. */
  lemma PreconditionViolations(code: Code, message: string, violations: seq<Violation>, rest: seq<Detail>, readOnly: bool)
    requires |violations| > 0
    ensures var t := violations[0].violationType;
            var e := MapStatus(Status(code, message, [PreconditionFailure(violations)] + rest), readOnly).base;
            && (t == "CAS" ==> e == Sentinel(CasMismatch))
            && (t == "LOCKED" ==> e == Sentinel(DocumentLocked))
            && (t == "PATH_MISMATCH" ==> e == Sentinel(PathMismatch))
            && (t == "DOC_NOT_JSON" ==> e == Sentinel(DocumentNotJSON))
            && (t == "DOC_TOO_DEEP" ==> e == Sentinel(ValueTooDeep))
            && (t == "WOULD_INVALIDATE_JSON" ==> e == Sentinel(ValueInvalid))
            && (PreconditionError(t).None? ==> e == CodeError(code, message, readOnly))
  {
  }

  /**
   * Under NotFound and AlreadyExists a first resource detail of a known type
   * decides the error; both index kinds give the index error.
   */
  lemma ResourceErrors(message: string, resourceType: string, name: string, rest: seq<Detail>, readOnly: bool)
    ensures var d := [ResourceInfo(resourceType, name)] + rest;
            var missing := MapStatus(Status(NotFound, message, d), readOnly).base;
            var exists_ := MapStatus(Status(AlreadyExists, message, d), readOnly).base;
            && (resourceType == "document" ==> missing == Sentinel(DocumentNotFound) && exists_ == Sentinel(DocumentExists))
            && (resourceType == "index" ==> missing == Sentinel(IndexNotFound) && exists_ == Sentinel(IndexExists))
            && (resourceType == "searchindex" ==> missing == Sentinel(IndexNotFound) && exists_ == Sentinel(IndexExists))
            && (resourceType == "bucket" ==> missing == Sentinel(BucketNotFound) && exists_ == Sentinel(BucketExists))
            && (resourceType == "scope" ==> missing == Sentinel(ScopeNotFound) && exists_ == Sentinel(ScopeExists))
            && (resourceType == "collection" ==> missing == Sentinel(CollectionNotFound) && exists_ == Sentinel(CollectionExists))
            && (resourceType == "path" ==> missing == Sentinel(PathNotFound) && exists_ == Sentinel(PathExists))
  {
  }

  /** Under any other code a resource detail decides nothing: the code alone decides. */
  lemma ResourceInfoOtherCodes(st: Status, readOnly: bool)
    requires |st.details| > 0 && st.details[0].ResourceInfo? && st.code != NotFound && st.code != AlreadyExists
    ensures MapStatus(st, readOnly).base == CodeError(st.code, st.message, readOnly)
  {
  }

  /**
   * The index errors come from exactly one place: a first resource detail
   * naming an index or a search index, under NotFound or AlreadyExists.
   */
  lemma IndexErrorsExactly(st: Status, readOnly: bool)
    ensures MapStatus(st, readOnly).base == Sentinel(IndexNotFound) <==>
              st.code == NotFound && |st.details| > 0 && st.details[0].ResourceInfo?
              && st.details[0].resourceType in {"index", "searchindex"}
    ensures MapStatus(st, readOnly).base == Sentinel(IndexExists) <==>
              st.code == AlreadyExists && |st.details| > 0 && st.details[0].ResourceInfo?
              && st.details[0].resourceType in {"index", "searchindex"}
  {
  }

  /**
   * A precondition error comes from exactly one place: a first precondition
   * failure whose first violation has the matching type.
   */
  lemma CasMismatchExactly(st: Status, readOnly: bool)
    ensures MapStatus(st, readOnly).base == Sentinel(CasMismatch) <==>
              |st.details| > 0 && st.details[0].PreconditionFailure? && |st.details[0].violations| > 0
              && st.details[0].violations[0].violationType == "CAS"
  {
  }

  /** A deadline is unambiguous exactly for read-only operations, unless a detail decides otherwise. */
  lemma DeadlineByReadOnly(message: string, details: seq<Detail>, readOnly: bool)
    requires |details| == 0 || DetailError(DeadlineExceeded, details[0]).None?
    ensures MapStatus(Status(DeadlineExceeded, message, details), readOnly).base ==
              if readOnly then Sentinel(UnambiguousTimeout) else Sentinel(AmbiguousTimeout)
  {
  }

  /**
   * The code-only table groups codes: Aborted, Unknown and Internal are all an
   * internal server failure; Unauthenticated and PermissionDenied are both a
   * wrapped authentication failure; OutOfRange and InvalidArgument are both an
   * invalid argument; every other code outside the table becomes the status
   * itself, except OK, whose status is no error at all.
   */
  lemma CodeGroups(message: string, readOnly: bool)
    ensures CodeError(Aborted, message, readOnly) == CodeError(Unknown, message, readOnly)
                                                 == CodeError(Internal, message, readOnly)
                                                 == Sentinel(InternalServerFailure)
    ensures CodeError(Unauthenticated, message, readOnly) == CodeError(PermissionDenied, message, readOnly)
                                                         == Wrapped(AuthenticationFailure, PermissionDeniedMessage)
    ensures CodeError(OutOfRange, message, readOnly) == CodeError(Code.InvalidArgument, message, readOnly)
                                                    == Sentinel(ErrorKind.InvalidArgument)
    ensures forall c :: c in {ResourceExhausted, FailedPrecondition, DataLoss} ==>
              CodeError(c, message, readOnly) == StatusError(c, message)
    ensures forall n: UnnamedCode :: CodeError(OtherCode(n), message, readOnly) == StatusError(OtherCode(n), message)
    ensures CodeError(OK, message, readOnly) == NoBaseError
  {
  }

  /**
   * The status itself is the error exactly for the codes outside the table
   * other than OK, unless a detail decides; under OK with no deciding detail
   * the generic error wraps no base error.
   */
  lemma StatusErrorExactly(st: Status, readOnly: bool)
    ensures MapStatus(st, readOnly).base.StatusError? <==>
              (|st.details| == 0 || DetailError(st.code, st.details[0]).None?)
              && (st.code in {ResourceExhausted, FailedPrecondition, DataLoss} || st.code.OtherCode?)
    ensures MapStatus(st, readOnly).base.StatusError? ==>
              MapStatus(st, readOnly).base == StatusError(st.code, st.message)
    ensures MapStatus(st, readOnly).base.NoBaseError? <==>
              (|st.details| == 0 || DetailError(st.code, st.details[0]).None?) && st.code == OK
  {
  }
}

=== FILE: histogram.dfy ===
/**
 * The latency histogram: a fixed-length array of per-bin counters that a
 * recording increments and an aggregation sweeps into a cumulative snapshot,
 * and the snapshot's percentile queries.
 */
module Histogram {
  import opened Bins
  import opened Counts

  /** The counts after recording v: its bin gains one. */
  function Record(s: Shape, counts: seq<nat>, v: nat): seq<nat>
    requires s.Valid() && |counts| == BinCount(s)
  {
    counts[BinFor(s, v) := counts[BinFor(s, v)] + 1]
  }

  /** The counts after recording the values in order. */
  function RecordAll(s: Shape, counts: seq<nat>, vs: seq<nat>): (r: seq<nat>)
    requires s.Valid() && |counts| == BinCount(s)
    ensures |r| == |counts|
    decreases |vs|
  {
    if vs == [] then counts else RecordAll(s, Record(s, counts, vs[0]), vs[1..])
  }

  /** Recording changes exactly one bin, by exactly one, and the total by one. */
  lemma RecordChangesOneBin(s: Shape, counts: seq<nat>, v: nat)
    requires s.Valid() && |counts| == BinCount(s)
    ensures |Record(s, counts, v)| == |counts|
    ensures Record(s, counts, v)[BinFor(s, v)] == counts[BinFor(s, v)] + 1
    ensures forall j :: 0 <= j < |counts| && j != BinFor(s, v) ==> Record(s, counts, v)[j] == counts[j]
    ensures Sum(Record(s, counts, v)) == Sum(counts) + 1
  {
    SumIncrement(counts, BinFor(s, v));
  }

  /** N recordings add N to the total. */
  lemma {:induction false} RecordAllTotal(s: Shape, counts: seq<nat>, vs: seq<nat>)
    requires s.Valid() && |counts| == BinCount(s)
    ensures Sum(RecordAll(s, counts, vs)) == Sum(counts) + |vs|
    decreases |vs|
  {
    if vs != [] {
      RecordChangesOneBin(s, counts, vs[0]);
      RecordAllTotal(s, Record(s, counts, vs[0]), vs[1..]);
    }
  }

  /** How many of the values go into bins 0..i. */
  function CountInBins(s: Shape, vs: seq<nat>, i: nat): (n: nat)
    requires s.Valid()
    ensures n <= |vs|
  {
    if vs == [] then 0
    else (if BinFor(s, vs[0]) <= i then 1 else 0) + CountInBins(s, vs[1..], i)
  }

  /** How many of the values are at most x. */
  function CountAtMost(vs: seq<nat>, x: real): (n: nat)
    ensures n <= |vs|
  {
    if vs == [] then 0
    else (if vs[0] as real <= x then 1 else 0) + CountAtMost(vs[1..], x)
  }

  lemma RecordPrefix(s: Shape, counts: seq<nat>, v: nat, i: nat)
    requires s.Valid() && |counts| == BinCount(s) && i < |counts|
    ensures Sum(Record(s, counts, v)[..i + 1]) == Sum(counts[..i + 1]) + (if BinFor(s, v) <= i then 1 else 0)
  {
    var b := BinFor(s, v);
    if b <= i {
      assert Record(s, counts, v)[..i + 1] == counts[..i + 1][b := counts[b] + 1];
      SumIncrement(counts[..i + 1], b);
    } else {
      assert Record(s, counts, v)[..i + 1] == counts[..i + 1];
    }
  }

  /** Cumulative count i after recordings = old cumulative count + values landing in bins 0..i. */
  lemma {:induction false} RecordAllPrefix(s: Shape, counts: seq<nat>, vs: seq<nat>, i: nat)
    requires s.Valid() && |counts| == BinCount(s) && i < |counts|
    ensures Sum(RecordAll(s, counts, vs)[..i + 1]) == Sum(counts[..i + 1]) + CountInBins(s, vs, i)
    decreases |vs|
  {
    if vs != [] {
      RecordPrefix(s, counts, vs[0], i);
      RecordAllPrefix(s, Record(s, counts, vs[0]), vs[1..], i);
    }
  }

  /**
   * Values in bins 0..i are at most the upper end of bin i; below the last
   * regular bin, the converse holds as well.
   */
  lemma {:induction false} CountInBinsBounds(s: Shape, vs: seq<nat>, i: nat)
    requires s.Valid() && i <= BinCount(s) - 2
    ensures CountInBins(s, vs, i) <= CountAtMost(vs, s.UpperBound(i))
    ensures i < BinCount(s) - 2 ==> CountInBins(s, vs, i) == CountAtMost(vs, s.UpperBound(i))
  {
    if vs != [] {
      CountInBinsBounds(s, vs[1..], i);
      if BinFor(s, vs[0]) <= i {
        BinUpperBoundSound(s, vs[0], i);
      }
      if i < BinCount(s) - 2 && vs[0] as real <= s.UpperBound(i) {
        BinUpperBoundComplete(s, vs[0], i);
      }
    }
  }

  /** A frozen cumulative view of a histogram, produced by AggregateAndReset. */
  datatype CumulativeLatencyHistogram = CumulativeLatencyHistogram(bins: seq<nat>, commonRatio: real, startValue: real)
  {
    /** The last cumulative entry: every value counted in the interval. */
    function TotalCount(): (total: nat)
      requires |bins| > 0
      ensures forall counts :: PrefixSums(counts) == bins ==> total == Sum(counts)
    {
      assert forall counts :: PrefixSums(counts) == bins ==> bins[|bins| - 1] == Sum(counts) by {
        forall counts | PrefixSums(counts) == bins
          ensures bins[|bins| - 1] == Sum(counts)
        {
          PrefixSumsLast(counts);
        }
      }
      bins[|bins| - 1]
    }
  }

  /**
   * A percentile answer: "<= startValue * ratio^index" for a regular bin,
   * "> startValue * ratio^(index-1)" for the overflow bin (never bin 0: a valid shape has at least two bins), or the fallback "0.0".
   */
  datatype Bound = AtMost(index: nat) | Above(index: nat) | NoBin

  /** The least integer at or above x. */
  function Ceil(x: real): (c: nat)
    requires 0.0 <= x
    ensures c as real >= x && (c as real) - 1.0 < x
  {
    if x.Floor as real == x then x.Floor else x.Floor + 1
  }

  /** The cumulative count a percentile must reach: ceil(percentile / 100 * total). */
  function Threshold(total: nat, percentile: real): nat
    requires 0.0 <= percentile
  {
    MulNonneg(percentile / 100.0, total as real);
    Ceil(percentile / 100.0 * total as real)
  }

  lemma ThresholdBounds(total: nat, percentile: real)
    requires 0.0 <= percentile <= 100.0
    ensures Threshold(total, percentile) <= total
    ensures percentile == 100.0 ==> Threshold(total, percentile) == total
  {
    var x := percentile / 100.0 * total as real;
    MulMonotone(total as real, percentile / 100.0, 1.0);
    assert x <= total as real;
    var c := Threshold(total, percentile);
    assert (c as real) - 1.0 < total as real;
    if percentile == 100.0 {
      assert x == total as real;
      assert x.Floor == total;
    }
  }

  /** i is the first index whose cumulative count reaches count. */
  predicate IsFirstAtLeast(bins: seq<nat>, count: nat, i: nat)
  {
    i < |bins| && bins[i] >= count && forall j :: 0 <= j < i ==> bins[j] < count
  }

  /** What BinAtPercentile answers for a percentile over cumulative bins. */
  predicate PercentileAnswer(bins: seq<nat>, percentile: real, b: Bound)
    requires |bins| > 0 && 0.0 <= percentile
  {
    var count := Threshold(bins[|bins| - 1], percentile);
    match b
    case NoBin => forall j :: 0 <= j < |bins| ==> bins[j] < count
    case AtMost(i) => IsFirstAtLeast(bins, count, i) && i < |bins| - 1
    case Above(i) => IsFirstAtLeast(bins, count, i) && i == |bins| - 1
  }

  /** The answer for the first bin at or after i whose cumulative count reaches count. */
  function FirstReaching(bins: seq<nat>, count: nat, i: nat): Bound
    requires i <= |bins|
    decreases |bins| - i
  {
    if i == |bins| then NoBin
    else if bins[i] >= count then (if i == |bins| - 1 then Above(i) else AtMost(i))
    else FirstReaching(bins, count, i + 1)
  }

  /** The reference answer for a percentile: the first bin reaching its threshold. */
  function PercentileBound(bins: seq<nat>, percentile: real): Bound
    requires |bins| > 0 && 0.0 <= percentile
  {
    FirstReaching(bins, Threshold(bins[|bins| - 1], percentile), 0)
  }

  /** Searching from i, past bins known to fall short, finds the answer PercentileAnswer describes. */
  lemma {:induction false} FirstReachingFinds(bins: seq<nat>, count: nat, i: nat)
    requires i <= |bins|
    requires forall j :: 0 <= j < i ==> bins[j] < count
    ensures match FirstReaching(bins, count, i)
            case NoBin => forall j :: 0 <= j < |bins| ==> bins[j] < count
            case AtMost(k) => IsFirstAtLeast(bins, count, k) && k < |bins| - 1
            case Above(k) => IsFirstAtLeast(bins, count, k) && k == |bins| - 1
    decreases |bins| - i
  {
    if i < |bins| && bins[i] < count {
      FirstReachingFinds(bins, count, i + 1);
    }
  }

  /** An answer fits a percentile exactly when it is the reference answer. */
  lemma PercentileBoundIsAnswer(bins: seq<nat>, percentile: real, b: Bound)
    requires |bins| > 0 && 0.0 <= percentile
    ensures PercentileAnswer(bins, percentile, b) <==> b == PercentileBound(bins, percentile)
  {
    FirstReachingFinds(bins, Threshold(bins[|bins| - 1], percentile), 0);
  }

  /**
   * Scans the cumulative bins in order for the first that reaches the
   * percentile's threshold; the fallback is unreachable for percentiles up to 100.
   */
  method BinAtPercentile(h: CumulativeLatencyHistogram, percentile: real) returns (b: Bound)
    requires |h.bins| > 0 && 0.0 <= percentile
    ensures PercentileAnswer(h.bins, percentile, b)
    ensures percentile <= 100.0 ==> !b.NoBin?
  {
    var count := Threshold(h.TotalCount(), percentile);
    if percentile <= 100.0 {
      ThresholdBounds(h.TotalCount(), percentile);
    }
    var i := 0;
    while i < |h.bins|
      invariant 0 <= i <= |h.bins|
      invariant forall j :: 0 <= j < i ==> h.bins[j] < count
    {
      if h.bins[i] >= count {
        if i == |h.bins| - 1 {
          return Above(i);
        }
        return AtMost(i);
      }
      i := i + 1;
    }
    return NoBin;
  }

  /**
   * The number each answer renders, as the source computes it: ratio^i * start
   * for "<=", ratio^(i-1) * start for ">", and 0.0 for the fallback.
   */
  function LabelValue(h: CumulativeLatencyHistogram, b: Bound): real
    requires b.Above? ==> b.index > 0
  {
    match b
    case AtMost(i) => h.startValue * Pow(h.commonRatio, i)
    case Above(i) => h.startValue * Pow(h.commonRatio, i - 1)
    case NoBin => 0.0
  }

  /** The number an answer should render: the overflow bin holds exactly the values above maxValue. */
  function IntendedLabelValue(s: Shape, b: Bound): real
  {
    match b
    case AtMost(i) => s.UpperBound(i)
    case Above(_) => s.maxValue
    case NoBin => 0.0
  }

  /** With the intended label, every value lies on the stated side of its bin's label. */
  lemma IntendedLabelSound(s: Shape, v: nat)
    requires s.Valid()
    ensures BinFor(s, v) < BinCount(s) - 1 ==> v as real <= IntendedLabelValue(s, AtMost(BinFor(s, v)))
    ensures BinFor(s, v) == BinCount(s) - 1 ==> v as real > IntendedLabelValue(s, Above(BinFor(s, v)))
  {
    if BinFor(s, v) < BinCount(s) - 1 {
      BinUpperBoundSound(s, v, BinFor(s, v));
    }
  }

  /**
   * As written, the overflow label of the recorder shape is "> 2216837.82",
   * yet 2,100,000 (above maxValue 2,000,000) goes into that bin.
   */
  lemma OverflowLabelAsWritten(bins: seq<nat>)
    ensures BinFor(RecorderShape, 2100000) == 20
    ensures 2100000.0 < LabelValue(CumulativeLatencyHistogram(bins, 1.5, 1000.0), Above(20))
  {
    RecorderBinCount();
  }

  /** Cumulative count i of values recorded into an empty histogram: how many land in bins 0..i. */
  lemma RecordedCumulative(s: Shape, vs: seq<nat>, i: nat)
    requires s.Valid() && i < BinCount(s)
    ensures PrefixSums(RecordAll(s, Zeros(BinCount(s)), vs))[i] == CountInBins(s, vs, i)
  {
    var z := Zeros(BinCount(s));
    SumOfZeros(z[..i + 1]);
    RecordAllPrefix(s, z, vs, i);
  }

  /** The total of a snapshot of values recorded into an empty histogram is their number. */
  lemma RecordedTotal(s: Shape, vs: seq<nat>)
    requires s.Valid()
    ensures CumulativeLatencyHistogram(PrefixSums(RecordAll(s, Zeros(BinCount(s)), vs)), s.commonRatio, s.startValue).TotalCount() == |vs|
  {
    var z := Zeros(BinCount(s));
    SumOfZeros(z);
    RecordAllTotal(s, z, vs);
    PrefixSumsLast(RecordAll(s, z, vs));
  }

  /**
   * If bin i is the first whose cumulative count reaches count, then at least
   * count of the recorded values are at most bin i's upper end, and fewer than
   * count are at most bin i-1's upper end.
   */
  lemma CumulativeLabelSound(s: Shape, vs: seq<nat>, count: nat, i: nat)
    requires s.Valid() && i < BinCount(s) - 1
    requires IsFirstAtLeast(PrefixSums(RecordAll(s, Zeros(BinCount(s)), vs)), count, i)
    ensures CountAtMost(vs, s.UpperBound(i)) >= count
    ensures i > 0 ==> CountAtMost(vs, s.UpperBound(i - 1)) < count
  {
    RecordedCumulative(s, vs, i);
    CountInBinsBounds(s, vs, i);
    if i > 0 {
      RecordedCumulative(s, vs, i - 1);
      CountInBinsBounds(s, vs, i - 1);
    }
  }

  /**
   * The percentile answer for values recorded into an empty histogram: at
   * least the threshold's worth of values are at most the "<=" label, and
   * fewer than that are at most the previous bin's label.
   */
  lemma PercentileLabelSound(s: Shape, vs: seq<nat>, percentile: real, i: nat)
    requires s.Valid() && 0.0 <= percentile
    requires PercentileAnswer(PrefixSums(RecordAll(s, Zeros(BinCount(s)), vs)), percentile, AtMost(i))
    ensures CountAtMost(vs, s.UpperBound(i)) >= Threshold(|vs|, percentile)
    ensures i > 0 ==> CountAtMost(vs, s.UpperBound(i - 1)) < Threshold(|vs|, percentile)
  {
    RecordedTotal(s, vs);
    CumulativeLabelSound(s, vs, Threshold(|vs|, percentile), i);
  }

  /** The answer for 100 is the highest non-empty bin. */
  lemma FullPercentileIsHighestBin(counts: seq<nat>, b: Bound)
    requires |counts| > 0 && PercentileAnswer(PrefixSums(counts), 100.0, b)
    ensures !b.NoBin?
    ensures forall j :: b.index < j < |counts| ==> counts[j] == 0
    ensures Sum(counts) > 0 ==> counts[b.index] > 0
  {
    PrefixSumsLast(counts);
    ThresholdBounds(Sum(counts), 100.0);
    FirstFullIndexIsLastNonEmpty(counts, b.index);
  }

  /** A histogram of fixed shape whose counters are updated in place. */
  class LatencyHistogram {
    const bins: array<nat>
    const shape: Shape

    ghost predicate Valid()
    {
      shape.Valid() && bins.Length == BinCount(shape)
    }

    constructor (maxValue: real, startValue: real, commonRatio: real)
      requires Shape(maxValue, startValue, commonRatio).Valid()
      ensures Valid() && shape == Shape(maxValue, startValue, commonRatio)
      ensures fresh(bins) && bins[..] == Zeros(bins.Length)
    {
      shape := Shape(maxValue, startValue, commonRatio);
      bins := new nat[BinCount(Shape(maxValue, startValue, commonRatio))](_ => 0);
    }

    /** Adds one to the bin the value belongs in. */
    method RecordValue(v: nat)
      requires Valid()
      modifies bins
      ensures bins[..] == Record(shape, old(bins[..]), v)
    {
      var bin := BinFor(shape, v);
      bins[bin] := bins[bin] + 1;
    }

    /** Swaps every counter to zero, in order, keeping the running total of what was swapped out. */
    method AggregateAndReset() returns (snapshot: CumulativeLatencyHistogram)
      requires Valid()
      modifies bins
      ensures bins[..] == Zeros(bins.Length)
      ensures snapshot == CumulativeLatencyHistogram(PrefixSums(old(bins[..])), shape.commonRatio, shape.startValue)
    {
      ghost var counts := bins[..];
      var cumulative := new nat[bins.Length];
      var countSoFar := 0;
      for i := 0 to bins.Length
        invariant forall j :: 0 <= j < i ==> bins[j] == 0
        invariant forall j :: i <= j < bins.Length ==> bins[j] == counts[j]
        invariant countSoFar == Sum(counts[..i])
        invariant forall j :: 0 <= j < i ==> cumulative[j] == PrefixSums(counts)[j]
      {
        var thisCount := bins[i];
        bins[i] := 0;
        SumStep(counts, i);
        countSoFar := countSoFar + thisCount;
        cumulative[i] := countSoFar;
      }
      snapshot := CumulativeLatencyHistogram(cumulative[..], shape.commonRatio, shape.startValue);
    }
  }

  /** Recording 1,000 once with the recorder shape: one value, and the median is "<= 1000". */
  method SingleValueExample() returns (total: nat, median: Bound)
    ensures total == 1 && median == AtMost(0)
    ensures LabelValue(CumulativeLatencyHistogram([], 1.5, 1000.0), median) == 1000.0
  {
    var h := new LatencyHistogram(2000000.0, 1000.0, 1.5);
    h.RecordValue(1000);
    var snapshot := h.AggregateAndReset();
    SingleValueCounts(h.shape);
    total := snapshot.TotalCount();
    median := BinAtPercentile(snapshot, 50.0);
    MedianOfOne(snapshot.bins, median);
  }

  /** After recording 1,000 once, the first cumulative count and the total are both one. */
  lemma SingleValueCounts(s: Shape)
    requires s == Shape(2000000.0, 1000.0, 1.5)
    ensures
      var c := PrefixSums(Record(s, Zeros(BinCount(s)), 1000));
      |c| > 1 && c[0] == 1 && c[|c| - 1] == 1
  {
    var z := Zeros(BinCount(s));
    assert RecordAll(s, z, [1000]) == Record(s, z, 1000) by {
      assert RecordAll(s, Record(s, z, 1000), []) == Record(s, z, 1000);
    }
    RecordedTotal(s, [1000]);
    RecordedCumulative(s, [1000], 0);
  }

  /** With a single value in the first bin, the median is "<= the first bin's bound". */
  lemma MedianOfOne(c: seq<nat>, b: Bound)
    requires |c| > 1 && c[0] == 1 && c[|c| - 1] == 1
    requires PercentileAnswer(c, 50.0, b)
    ensures b == AtMost(0)
  {
    assert Threshold(1, 50.0) == 1;
  }

  /** A second reset with no recordings in between yields a zero total. */
  method ResetTwiceExample(h: LatencyHistogram) returns (total: nat)
    requires h.Valid()
    modifies h.bins
    ensures total == 0
  {
    var first := h.AggregateAndReset();
    var second := h.AggregateAndReset();
    PrefixSumsLast(Zeros(h.bins.Length));
    SumOfZeros(Zeros(h.bins.Length));
    total := second.TotalCount();
  }
}

=== FILE: logger.dfy ===
/**
 * The logger routine of the aggregating meter: on each timer tick it takes
 * the meter's summary and logs it, until it is told to stop.
 */
module Logger {
  import opened Meter

  /**
   * What the routine waits for: the stop signal, or the timer firing, with
   * the summary the meter generated at that moment.
   */
  datatype Event = StopSignal | TimerFired(output: Report)

  /** A rendered summary that holds nothing but "meta". */
  predicate OnlyMeta(json: map<string, OutputEntry>)
  {
    |json| == 1
  }

  /**
   * What the routine as written logs: it stops at the stop signal, and also
   * at the first summary that holds nothing but "meta".
   */
  function LoggedAsWritten(events: seq<Event>): seq<map<string, OutputEntry>>
  {
    if |events| == 0 then []
    else match events[0]
      case StopSignal => []
      case TimerFired(r) =>
        if OnlyMeta(Rendered(r)) then [] else [Rendered(r)] + LoggedAsWritten(events[1..])
  }

  /** What the routine logs when a summary holding nothing but "meta" is skipped rather than ending it. */
  function Logged(events: seq<Event>): seq<map<string, OutputEntry>>
  {
    if |events| == 0 then []
    else match events[0]
      case StopSignal => []
      case TimerFired(r) =>
        if OnlyMeta(Rendered(r)) then Logged(events[1..]) else [Rendered(r)] + Logged(events[1..])
  }

  /** The loop as written: a summary holding nothing but "meta" ends the routine. */
  method LoggerRoutineAsWritten(events: seq<Event>) returns (logged: seq<map<string, OutputEntry>>)
    ensures logged == LoggedAsWritten(events)
  {
    logged := [];
    var i := 0;
    while i < |events|
      invariant i <= |events|
      invariant logged + LoggedAsWritten(events[i..]) == LoggedAsWritten(events)
    {
      match events[i]
      case StopSignal =>
        return;
      case TimerFired(output) =>
        var json := Rendered(output);
        if |json| == 1 {
          return;
        }
        logged := logged + [json];
      i := i + 1;
    }
  }

  /** The loop with the intended behaviour: a summary holding nothing but "meta" is skipped. */
  method LoggerRoutine(events: seq<Event>) returns (logged: seq<map<string, OutputEntry>>)
    ensures logged == Logged(events)
  {
    logged := [];
    var i := 0;
    while i < |events|
      invariant i <= |events|
      invariant logged + Logged(events[i..]) == Logged(events)
    {
      match events[i]
      case StopSignal =>
        return;
      case TimerFired(output) =>
        var json := Rendered(output);
        if |json| != 1 {
          logged := logged + [json];
        }
      i := i + 1;
    }
  }

  /** The summaries generated before the first stop signal, in order. */
  function TicksBeforeStop(events: seq<Event>): seq<Report>
  {
    if |events| == 0 || events[0].StopSignal? then [] else [events[0].output] + TicksBeforeStop(events[1..])
  }

  /**
   * The routine logs, rendered, every summary generated before the stop
   * signal that reports at least one service, and nothing else: never one
   * holding nothing but "meta", and at most one entry per tick.
   */
  lemma {:induction false} LoggedReportsServices(events: seq<Event>)
    ensures |Logged(events)| <= |TicksBeforeStop(events)|
    ensures forall k :: 0 <= k < |Logged(events)| ==> !OnlyMeta(Logged(events)[k])
    ensures forall r :: r in TicksBeforeStop(events) && r.services != map[] ==> Rendered(r) in Logged(events)
    ensures forall json :: json in Logged(events) ==>
              exists r :: r in TicksBeforeStop(events) && r.services != map[] && json == Rendered(r)
  {
    if |events| > 0 && events[0].TimerFired? {
      var r := events[0].output;
      LoggedReportsServices(events[1..]);
      RenderedOnlyMeta(r);
      assert TicksBeforeStop(events) == [r] + TicksBeforeStop(events[1..]);
    }
  }

  /** What the routine as written logs is always a prefix of what it should log. */
  lemma {:induction false} AsWrittenIsPrefix(events: seq<Event>)
    ensures LoggedAsWritten(events) <= Logged(events)
  {
    if |events| > 0 && events[0].TimerFired? && !OnlyMeta(Rendered(events[0].output)) {
      AsWrittenIsPrefix(events[1..]);
    }
  }

  /** The two agree whenever every summary before the stop signal reports some service. */
  lemma {:induction false} AsWrittenAgreesWithoutEmptyTicks(events: seq<Event>)
    requires forall r :: r in TicksBeforeStop(events) ==> r.services != map[]
    ensures LoggedAsWritten(events) == Logged(events)
  {
    if |events| > 0 && events[0].TimerFired? {
      var r := events[0].output;
      assert TicksBeforeStop(events) == [r] + TicksBeforeStop(events[1..]);
      RenderedOnlyMeta(r);
      AsWrittenAgreesWithoutEmptyTicks(events[1..]);
    }
  }

  /**
   * A tick before any recorder exists, then a tick after one has recorded:
   * the routine as written logs nothing at all, while the second summary
   * should be logged.
   */
  lemma EmptyTickEndsLogging(empty: Report, full: Report)
    requires empty.services == map[] && full.services != map[]
    ensures LoggedAsWritten([TimerFired(empty), TimerFired(full)]) == []
    ensures Logged([TimerFired(empty), TimerFired(full)]) == [Rendered(full)]
  {
    var events := [TimerFired(empty), TimerFired(full)];
    var rest := [TimerFired(full)];
    RenderedOnlyMeta(empty);
    RenderedOnlyMeta(full);
    assert events[1..] == rest;
    assert rest[1..] == [];
    assert Logged(rest) == [Rendered(full)];
    assert Logged(events) == Logged(rest);
  }
}

=== FILE: meter.dfy ===
/**
 * The aggregating meter: a fixed table of six per-service recorder groups,
 * each mapping a peer name to the value recorder (one latency histogram) for
 * that peer, and the periodic summary built from them.
 */
module Meter {
  import opened Wrappers
  import opened Bins
  import opened Counts
  import opened Histogram

  /** The metric name whose values are aggregated; every other name gets the no-op recorder. */
  const ResponsesMetric := "db.couchbase.responses"
  /** The tag that names the service of an operation. */
  const ServiceTag := "db.couchbase.service"
  /** The tag that names the remote peer of an operation. */
  const PeerTag := "net.peer.name"
  /** The emission interval when none is configured: 10 minutes, in nanoseconds. */
  const DefaultEmitInterval := 600_000_000_000

  /** The closed set of services that have a recorder group. */
  datatype Service = KV | Views | Query | Search | Analytics | Management

  const AllServices: seq<Service> := [KV, Views, Query, Search, Analytics, Management]

  /** The position of a service in AllServices. */
  function ServiceIndex(s: Service): (i: nat)
    ensures i < |AllServices| && AllServices[i] == s
  {
    match s
    case KV => 0
    case Views => 1
    case Query => 2
    case Search => 3
    case Analytics => 4
    case Management => 5
  }

  /** AllServices lists each service at its own index. */
  lemma ServiceAtIndex(k: nat)
    requires k < |AllServices|
    ensures ServiceIndex(AllServices[k]) == k
  {
  }

  /** The name a service goes by in tags and in the summary. */
  function ServiceName(s: Service): string
  {
    match s
    case KV => "kv"
    case Views => "views"
    case Query => "query"
    case Search => "search"
    case Analytics => "analytics"
    case Management => "management"
  }

  /** The group-table lookup: which service, if any, a tag value names. */
  function ParseService(name: string): Option<Service>
  {
    if name == "kv" then Some(KV)
    else if name == "views" then Some(Views)
    else if name == "query" then Some(Query)
    else if name == "search" then Some(Search)
    else if name == "analytics" then Some(Analytics)
    else if name == "management" then Some(Management)
    else None
  }

  lemma ParseServiceExactly(name: string, s: Service)
    ensures ParseService(name) == Some(s) <==> name == ServiceName(s)
  {
  }

  /** Distinct services have distinct names. */
  lemma ServiceNamesDistinct()
    ensures forall s, t :: ServiceName(s) == ServiceName(t) ==> s == t
  {
    forall s, t | ServiceName(s) == ServiceName(t)
      ensures s == t
    {
      assert ParseService(ServiceName(s)) == Some(s);
      assert ParseService(ServiceName(t)) == Some(t);
    }
  }

  lemma AllServicesListed(s: Service)
    ensures s in AllServices && ServiceName(s) != "meta"
  {
  }

  /**
   * Where a recording goes: the (service, peer) pair, or None for the no-op
   * recorder (another metric, no service tag, an unknown service, no peer tag).
   */
  function Route(name: string, tags: map<string, string>): (r: Option<(Service, string)>)
    ensures r.Some? ==>
              && name == ResponsesMetric
              && ServiceTag in tags && tags[ServiceTag] == ServiceName(r.value.0)
              && PeerTag in tags && tags[PeerTag] == r.value.1
  {
    if name != ResponsesMetric then None
    else if ServiceTag !in tags then None
    else match ParseService(tags[ServiceTag])
      case None => None
      case Some(service) => if PeerTag !in tags then None else Some((service, tags[PeerTag]))
  }

  /** A recording is routed to (service, peer) exactly when the name and both tags say so. */
  lemma RouteExactly(name: string, tags: map<string, string>, service: Service, peer: string)
    ensures Route(name, tags) == Some((service, peer)) <==>
              && name == ResponsesMetric
              && ServiceTag in tags && tags[ServiceTag] == ServiceName(service)
              && PeerTag in tags && tags[PeerTag] == peer
  {
    if ServiceTag in tags {
      ParseServiceExactly(tags[ServiceTag], service);
    }
  }

  /** The percentiles every summary reports, keyed as in the summary. */
  const Percentiles: map<string, real> :=
    map["50.0" := 50.0, "90.0" := 90.0, "99.0" := 99.0, "99.9" := 99.9, "100.0" := 100.0]

  /** One peer's entry in the summary: total_count and percentiles_us. */
  datatype RecorderSummary = RecorderSummary(totalCount: nat, percentiles: map<string, Bound>)

  /**
   * A summary reports a cumulative histogram: its total, and for each
   * reported percentile the bin that percentile falls into.
   */
  ghost predicate Summarizes(summary: RecorderSummary, cumulative: seq<nat>)
  {
    && |cumulative| > 0
    && summary.totalCount == cumulative[|cumulative| - 1]
    && summary.percentiles.Keys == Percentiles.Keys
    && forall key :: key in Percentiles ==>
         PercentileAnswer(cumulative, Percentiles[key], summary.percentiles[key])
         && !summary.percentiles[key].NoBin?
  }

  /** The five percentile keys are different strings. */
  lemma PercentileKeysDistinct()
    ensures "50.0" != "90.0" && "50.0" != "99.0" && "50.0" != "99.9" && "50.0" != "100.0"
    ensures "90.0" != "99.0" && "90.0" != "99.9" && "90.0" != "100.0"
    ensures "99.0" != "99.9" && "99.0" != "100.0" && "99.9" != "100.0"
  {
    assert "50.0"[0] == '5' && "90.0"[0] == '9' && "99.0"[0] == '9' && "99.9"[0] == '9';
    assert "90.0"[1] == '0' && "99.0"[1] == '9' && "99.9"[1] == '9';
    assert "99.0"[3] == '0' && "99.9"[3] == '9';
    assert |"100.0"| == 5;
  }

  /** The five answers assembled into one summary report the histogram they were computed from. */
  lemma SummaryOfAnswers(cumulative: seq<nat>, p50: Bound, p90: Bound, p99: Bound, p999: Bound, p100: Bound)
    requires |cumulative| > 0
    requires PercentileAnswer(cumulative, 50.0, p50) && !p50.NoBin?
    requires PercentileAnswer(cumulative, 90.0, p90) && !p90.NoBin?
    requires PercentileAnswer(cumulative, 99.0, p99) && !p99.NoBin?
    requires PercentileAnswer(cumulative, 99.9, p999) && !p999.NoBin?
    requires PercentileAnswer(cumulative, 100.0, p100) && !p100.NoBin?
    ensures Summarizes(RecorderSummary(cumulative[|cumulative| - 1],
              map["50.0" := p50, "90.0" := p90, "99.0" := p99, "99.9" := p999, "100.0" := p100]), cumulative)
  {
    var m := map["50.0" := p50, "90.0" := p90, "99.0" := p99, "99.9" := p999, "100.0" := p100];
    PercentileKeysDistinct();
    assert m.Keys == Percentiles.Keys;
    forall key | key in Percentiles
      ensures PercentileAnswer(cumulative, Percentiles[key], m[key]) && !m[key].NoBin?
    {
      if key == "50.0" {
        assert Percentiles[key] == 50.0 && m[key] == p50;
      } else if key == "90.0" {
        assert Percentiles[key] == 90.0 && m[key] == p90;
      } else if key == "99.0" {
        assert Percentiles[key] == 99.0 && m[key] == p99;
      } else if key == "99.9" {
        assert Percentiles[key] == 99.9 && m[key] == p999;
      } else {
        assert Percentiles[key] == 100.0 && m[key] == p100;
      }
    }
  }

  /**
   * The reference summary of a histogram's counts: their total, and for each
   * reported percentile the first bin whose cumulative count reaches that share of the total.
   */
  function Summary(counts: seq<nat>): RecorderSummary
  {
    RecorderSummary(Sum(counts),
      map key | key in Percentiles :: FirstReaching(PrefixSums(counts), Threshold(Sum(counts), Percentiles[key]), 0))
  }

  /** A service's expected part of the summary, from what its recorders' histograms held: absent without recorders. */
  function ServiceReport(counts: map<string, seq<nat>>): Option<map<string, RecorderSummary>>
  {
    if |counts| == 0 then None else Some(map p | p in counts :: Summary(counts[p]))
  }

  /** A map holding each peer's summary is the report of those peers' counts. */
  lemma ReportOfSummaries(serviceMap: map<string, RecorderSummary>, counts: map<string, seq<nat>>)
    requires serviceMap.Keys == counts.Keys && |serviceMap| > 0
    requires forall p :: p in counts ==> serviceMap[p] == Summary(counts[p])
    ensures ServiceReport(counts) == Some(serviceMap)
  {
    assert serviceMap == map p | p in counts :: Summary(counts[p]);
  }

  /** A summary reports a histogram's counts exactly when it is their reference summary. */
  lemma SummaryExactly(summary: RecorderSummary, counts: seq<nat>)
    requires |counts| > 0
    ensures Summarizes(summary, PrefixSums(counts)) <==> summary == Summary(counts)
  {
    var cumulative := PrefixSums(counts);
    var reference := Summary(counts);
    PrefixSumsLast(counts);
    forall key | key in Percentiles
      ensures PercentileAnswer(cumulative, Percentiles[key], reference.percentiles[key])
      ensures !reference.percentiles[key].NoBin?
      ensures key in summary.percentiles ==>
                (PercentileAnswer(cumulative, Percentiles[key], summary.percentiles[key]) <==>
                 summary.percentiles[key] == reference.percentiles[key])
    {
      assert reference.percentiles[key] == PercentileBound(cumulative, Percentiles[key]);
      PercentileBoundIsAnswer(cumulative, Percentiles[key], reference.percentiles[key]);
      ThresholdBounds(Sum(counts), Percentiles[key]);
      if key in summary.percentiles {
        PercentileBoundIsAnswer(cumulative, Percentiles[key], summary.percentiles[key]);
      }
    }
    if Summarizes(summary, cumulative) {
      assert summary.percentiles == reference.percentiles;
    }
  }

  /** The periodic summary: the emission interval and, for each reported service, its peers' summaries. */
  datatype Report = Report(emitInterval: int, services: map<Service, map<string, RecorderSummary>>)
  {
    /** The part of the summary that belongs to a service, if any. */
    function EntryFor(service: Service): Option<map<string, RecorderSummary>>
    {
      EntryIn(services, service)
    }
  }

  /** The entry a service has in a map of reported services, if any. */
  function EntryIn(services: map<Service, map<string, RecorderSummary>>, service: Service): Option<map<string, RecorderSummary>>
  {
    if service in services then Some(services[service]) else None
  }

  /** The services before position k of AllServices are reported as their counts say, and no others. */
  ghost predicate ReportsUpTo(services: map<Service, map<string, RecorderSummary>>,
                              before: map<Service, map<string, seq<nat>>>, k: nat)
  {
    forall s :: s in before && (if ServiceIndex(s) < k then EntryIn(services, s) == ServiceReport(before[s]) else s !in services)
  }

  /** Adding the next service's entry, when it has one, extends the reported prefix by that service. */
  lemma ReportStep(done: map<Service, map<string, RecorderSummary>>, service: Service,
                   entry: Option<map<string, RecorderSummary>>, before: map<Service, map<string, seq<nat>>>)
    requires ReportsUpTo(done, before, ServiceIndex(service))
    requires entry == ServiceReport(before[service])
    ensures ReportsUpTo(if entry.Some? then done[service := entry.value] else done, before, ServiceIndex(service) + 1)
  {
    var services := if entry.Some? then done[service := entry.value] else done;
    forall s | s in before
      ensures if ServiceIndex(s) < ServiceIndex(service) + 1 then EntryIn(services, s) == ServiceReport(before[s])
              else s !in services
    {
      if s != service {
        assert EntryIn(services, s) == EntryIn(done, s);
      }
    }
  }

  /** A top-level entry of the logged object: "meta", or one service's map from peer to summary. */
  datatype OutputEntry = Meta(emitInterval: int) | ServiceEntry(peers: map<string, RecorderSummary>)

  /** The summary as the object the logger marshals: "meta", and each reported service under its name. */
  function Rendered(r: Report): map<string, OutputEntry>
  {
    (map s | s in r.services :: ServiceName(s) := ServiceEntry(r.services[s]))["meta" := Meta(r.emitInterval)]
  }

  /**
   * The rendered summary holds "meta" with the interval, and holds a
   * service's name exactly when the service is reported, with its peers'
   * summaries.
   */
  lemma RenderedEntries(r: Report, s: Service)
    ensures "meta" in Rendered(r) && Rendered(r)["meta"] == Meta(r.emitInterval)
    ensures ServiceName(s) in Rendered(r) <==> s in r.services
    ensures s in r.services ==> Rendered(r)[ServiceName(s)] == ServiceEntry(r.services[s])
  {
    AllServicesListed(s);
    ServiceNamesDistinct();
  }

  /** Every rendered key is "meta" or a service's name. */
  lemma RenderedKeys(r: Report, key: string)
    requires key in Rendered(r)
    ensures key == "meta" || ParseService(key).Some?
  {
  }

  /** Only "meta" is rendered exactly when no service is reported. */
  lemma RenderedOnlyMeta(r: Report)
    ensures |Rendered(r)| == 1 <==> r.services == map[]
  {
    RenderedEntries(r, KV);
    if r.services != map[] {
      var s :| s in r.services;
      RenderedEntries(r, s);
      assert {"meta", ServiceName(s)} <= Rendered(r).Keys;
      assert |{"meta", ServiceName(s)}| == 2;
    } else {
      assert Rendered(r).Keys == {"meta"};
    }
  }

  /** The options of a meter; an absent options value behaves as the zero value. */
  datatype AggregatingMeterOptions = AggregatingMeterOptions(emitInterval: int)

  /** The configured interval, or the default when options are absent or the interval is zero. */
  function EmitInterval(opts: Option<AggregatingMeterOptions>): (d: int)
    ensures d != 0
    ensures opts.Some? && opts.value.emitInterval != 0 ==> d == opts.value.emitInterval
    ensures opts.None? || opts.value.emitInterval == 0 ==> d == DefaultEmitInterval
  {
    if opts.None? || opts.value.emitInterval == 0 then DefaultEmitInterval else opts.value.emitInterval
  }

  /** One peer's recorder: a histogram of the fixed recorder shape. */
  class AggregatingValueRecorder {
    const peerName: string
    const hist: LatencyHistogram

    /** The recorder's histogram has the fixed shape, and so its 21 bins. */
    ghost predicate Valid()
    {
      hist.shape == RecorderShape && hist.bins.Length == 21
    }

    constructor (peerName: string)
      ensures Valid() && this.peerName == peerName
      ensures fresh(hist) && fresh(hist.bins) && hist.bins[..] == Zeros(hist.bins.Length)
    {
      this.peerName := peerName;
      RecorderBinCount();
      hist := new LatencyHistogram(2000000.0, 1000.0, 1.5);
    }

    method RecordValue(v: nat)
      requires Valid()
      modifies hist.bins
      ensures (RecorderBinCount(); hist.bins[..] == Record(RecorderShape, old(hist.bins[..]), v))
    {
      RecorderBinCount();
      hist.RecordValue(v);
    }

    /** Snapshots and resets the histogram, then reports the total and five percentiles. */
    method GetAndResetValues() returns (summary: RecorderSummary)
      requires Valid()
      modifies hist.bins
      ensures hist.bins[..] == Zeros(hist.bins.Length)
      ensures summary == Summary(old(hist.bins[..]))
    {
      RecorderBinCount();
      var snapshot := hist.AggregateAndReset();
      PrefixSumsLast(old(hist.bins[..]));
      var p50 := BinAtPercentile(snapshot, 50.0);
      var p90 := BinAtPercentile(snapshot, 90.0);
      var p99 := BinAtPercentile(snapshot, 99.0);
      var p999 := BinAtPercentile(snapshot, 99.9);
      var p100 := BinAtPercentile(snapshot, 100.0);
      summary := RecorderSummary(snapshot.TotalCount(),
        map["50.0" := p50, "90.0" := p90, "99.0" := p99, "99.9" := p999, "100.0" := p100]);
      SummaryOfAnswers(snapshot.bins, p50, p90, p99, p999, p100);
      SummaryExactly(summary, old(hist.bins[..]));
    }
  }

  /**
   * Once every recorder of an enumeration of a non-empty group is summarized
   * and reset, the group's report is the collected map and every recorder of
   * the group is reset.
   */
  lemma EnumerationCollected(recorders: map<string, AggregatingValueRecorder>, rs: seq<AggregatingValueRecorder>,
                             position: map<string, nat>, serviceMap: map<string, RecorderSummary>,
                             counts: map<string, seq<nat>>)
    requires counts.Keys == recorders.Keys && |rs| > 0
    requires forall peer :: peer in recorders ==>
               peer in position && position[peer] < |rs| && rs[position[peer]] == recorders[peer]
               && recorders[peer].peerName == peer
    requires serviceMap.Keys <= counts.Keys
    requires forall i :: 0 <= i < |rs| ==>
               && rs[i].peerName in serviceMap
               && serviceMap[rs[i].peerName] == Summary(counts[rs[i].peerName])
               && rs[i].hist.bins[..] == Zeros(rs[i].hist.bins.Length)
    ensures ServiceReport(counts) == Some(serviceMap)
    ensures forall p :: p in recorders ==> recorders[p].hist.bins[..] == Zeros(recorders[p].hist.bins.Length)
  {
    forall p | p in recorders
      ensures p in serviceMap && serviceMap[p] == Summary(counts[p])
      ensures recorders[p].hist.bins[..] == Zeros(recorders[p].hist.bins.Length)
    {
      assert rs[position[p]] == recorders[p];
    }
    assert serviceMap.Keys == counts.Keys;
    assert rs[0].peerName in serviceMap;
    ReportOfSummaries(serviceMap, counts);
  }

  /** What the meter hands out: the shared no-op recorder or a live one. */
  datatype RecorderRef = NoopRecorder | Live(recorder: AggregatingValueRecorder)

  /** The only counter the meter hands out. */
  datatype CounterRef = NoopCounter

  /** Recording through a handle: a live recorder records, the no-op one changes nothing. */
  method RecordValue(r: RecorderRef, v: nat)
    requires r.Live? ==> r.recorder.Valid()
    modifies if r.Live? then {r.recorder.hist.bins} else {}
    ensures r.Live? ==>
              (RecorderBinCount(); r.recorder.hist.bins[..] == Record(RecorderShape, old(r.recorder.hist.bins[..]), v))
  {
    if r.Live? {
      r.recorder.RecordValue(v);
    }
  }

  /** The recorders of one service, keyed by peer name. */
  class AggregatingMeterGroup {
    /** The service this group belongs to. */
    ghost const service: Service
    var recorders: map<string, AggregatingValueRecorder>

    ghost predicate Valid()
      reads this
    {
      forall peer :: peer in recorders ==> recorders[peer].peerName == peer && recorders[peer].Valid()
    }

    constructor (ghost service: Service)
      ensures this.service == service && recorders == map[]
    {
      this.service := service;
      recorders := map[];
    }

    /** The recorder for a peer, created and added on first use. */
    method GetOrCreate(peer: string) returns (recorder: AggregatingValueRecorder)
      requires Valid()
      modifies this
      ensures Valid() && recorder.peerName == peer
      ensures recorders == old(recorders)[peer := recorder]
      ensures peer in old(recorders) ==> recorder == old(recorders[peer])
      ensures peer !in old(recorders) ==>
                && fresh(recorder) && fresh(recorder.hist.bins)
                && recorder.hist.bins[..] == Zeros(recorder.hist.bins.Length)
    {
      if peer in recorders {
        recorder := recorders[peer];
      } else {
        recorder := new AggregatingValueRecorder(peer);
        recorders := recorders[peer := recorder];
      }
    }

    /** A copy of the current recorders, each exactly once, in some order. */
    method Recorders() returns (rs: seq<AggregatingValueRecorder>, ghost position: map<string, nat>)
      requires Valid()
      ensures |rs| == |recorders|
      ensures forall i :: 0 <= i < |rs| ==> rs[i].peerName in recorders && recorders[rs[i].peerName] == rs[i]
      ensures forall peer :: peer in recorders ==>
                peer in position && position[peer] < |rs| && rs[position[peer]] == recorders[peer]
      ensures forall i, j :: 0 <= i < j < |rs| ==> rs[i].peerName != rs[j].peerName
    {
      position := map[];
      if |recorders| == 0 {
        return [], position;
      }
      rs := [];
      var remaining := recorders.Keys;
      while remaining != {}
        invariant remaining <= recorders.Keys
        invariant |rs| + |remaining| == |recorders|
        invariant forall i :: 0 <= i < |rs| ==> rs[i].peerName in recorders && rs[i].peerName !in remaining
                                                && recorders[rs[i].peerName] == rs[i]
        invariant forall peer :: peer in recorders && peer !in remaining ==>
                    peer in position && position[peer] < |rs| && rs[position[peer]] == recorders[peer]
        invariant forall i, j :: 0 <= i < j < |rs| ==> rs[i].peerName != rs[j].peerName
        decreases |remaining|
      {
        var peer :| peer in remaining;
        position := position[peer := |rs|];
        rs := rs + [recorders[peer]];
        remaining := remaining - {peer};
      }
    }
  }

  /** The meter: the fixed group table and the emission interval. */
  class AggregatingMeter {
    const interval: int
    const groups: map<Service, AggregatingMeterGroup>

    /** Which (service, peer) owns each counter array; it keeps the arrays of distinct recorders apart. */
    ghost var owners: map<array<nat>, (Service, string)>

    /** The counter arrays of every recorder in every group. */
    ghost function Histograms(): set<array<nat>>
      reads this
    {
      owners.Keys
    }

    /** The counter arrays of one service's recorders. */
    ghost function ServiceHistograms(service: Service): set<array<nat>>
      reads this
    {
      set a | a in owners && owners[a].0 == service
    }

    /** Every recorder of a service owns its counter array under its own (service, peer). */
    ghost predicate Owned(service: Service)
      reads this, groups.Values
    {
      && service in groups
      && forall p :: p in groups[service].recorders ==>
           groups[service].recorders[p].hist.bins in owners
           && owners[groups[service].recorders[p].hist.bins] == (service, p)
    }

    ghost predicate Valid()
      reads this, groups.Values
    {
      && (forall s: Service :: s in groups)
      && (forall s :: s in groups ==> groups[s].service == s && groups[s].Valid() && Owned(s))
    }

    lemma HistogramsDistinct(s: Service, p: string, t: Service, q: string)
      requires Valid()
      requires p in groups[s].recorders && q in groups[t].recorders && (s != t || p != q)
      ensures groups[s].recorders[p].hist.bins != groups[t].recorders[q].hist.bins
    {
    }

    /** NewAggregatingMeter: six empty groups and the configured or default interval. */
    constructor (opts: Option<AggregatingMeterOptions>)
      ensures Valid() && interval == EmitInterval(opts)
      ensures forall s :: s in groups ==> fresh(groups[s]) && groups[s].recorders == map[]
    {
      interval := EmitInterval(opts);
      var kv := new AggregatingMeterGroup(KV);
      var views := new AggregatingMeterGroup(Views);
      var query := new AggregatingMeterGroup(Query);
      var search := new AggregatingMeterGroup(Search);
      var analytics := new AggregatingMeterGroup(Analytics);
      var management := new AggregatingMeterGroup(Management);
      groups := map[KV := kv, Views := views, Query := query, Search := search,
                    Analytics := analytics, Management := management];
      owners := map[];
      new;
      forall s: Service
        ensures s in groups && fresh(groups[s]) && groups[s].service == s && groups[s].recorders == map[]
      {
        match s
        case KV => assert groups[s] == kv;
        case Views => assert groups[s] == views;
        case Query => assert groups[s] == query;
        case Search => assert groups[s] == search;
        case Analytics => assert groups[s] == analytics;
        case Management => assert groups[s] == management;
      }
    }

    /** Counters are not aggregated: always the no-op counter. */
    method Counter(name: string, tags: map<string, string>) returns (c: CounterRef)
    {
      c := NoopCounter;
    }

    /**
     * The recorder for a recording: the no-op recorder unless it is routed to
     * a (service, peer); then that peer's recorder, created on first use.
     */
    method ValueRecorder(name: string, tags: map<string, string>) returns (r: RecorderRef)
      requires Valid()
      modifies this, groups.Values
      ensures Valid()
      ensures r.NoopRecorder? <==> Route(name, tags).None?
      ensures Route(name, tags).None? ==> forall s :: s in groups ==> groups[s].recorders == old(groups[s].recorders)
      ensures Route(name, tags).Some? ==>
                var (service, peer) := Route(name, tags).value;
                && r.Live?
                && r.recorder.peerName == peer
                && groups[service].recorders == old(groups[service].recorders)[peer := r.recorder]
                && (peer in old(groups[service].recorders) ==> r.recorder == old(groups[service].recorders[peer]))
                && (peer !in old(groups[service].recorders) ==>
                      && fresh(r.recorder)
                      && r.recorder.hist.bins[..] == Zeros(r.recorder.hist.bins.Length))
                && forall t :: t in groups && t != service ==> groups[t].recorders == old(groups[t].recorders)
    {
      var route := Route(name, tags);
      if route.None? {
        return NoopRecorder;
      }
      var (service, peer) := route.value;
      var group := groups[service];
      var recorder := group.GetOrCreate(peer);
      if peer !in old(group.recorders) {
        owners := owners[recorder.hist.bins := (service, peer)];
      }
      r := Live(recorder);
      assert forall t :: t in groups && t != service ==> groups[t].recorders == old(groups[t].recorders);
      forall s, p | s in groups && p in groups[s].recorders
        ensures groups[s].recorders[p].hist.bins in owners && owners[groups[s].recorders[p].hist.bins] == (s, p)
      {
        if s != service || p != peer {
          assert groups[s].recorders[p] == old(groups[s].recorders[p]);
        }
      }
    }

    /**
     * Snapshots and resets each recorder of one group, keyed by peer name;
     * counts says what each peer's histogram holds beforehand.
     */
    method CollectRecorders(rs: seq<AggregatingValueRecorder>, ghost counts: map<string, seq<nat>>)
      returns (serviceMap: map<string, RecorderSummary>)
      requires Collectable(rs, counts)
      modifies set i | 0 <= i < |rs| :: rs[i].hist.bins
      ensures serviceMap.Keys <= counts.Keys
      ensures forall i :: 0 <= i < |rs| ==>
                && rs[i].peerName in serviceMap
                && serviceMap[rs[i].peerName] == Summary(counts[rs[i].peerName])
                && rs[i].hist.bins[..] == Zeros(rs[i].hist.bins.Length)
    {
      serviceMap := map[];
      for k := 0 to |rs|
        invariant serviceMap.Keys <= counts.Keys
        invariant forall i :: 0 <= i < k ==>
                    && rs[i].peerName in serviceMap
                    && serviceMap[rs[i].peerName] == Summary(counts[rs[i].peerName])
                    && rs[i].hist.bins[..] == Zeros(rs[i].hist.bins.Length)
        invariant forall i :: k <= i < |rs| ==> rs[i].hist.bins[..] == counts[rs[i].peerName]
      {
        var summary := rs[k].GetAndResetValues();
        assert forall i :: k < i < |rs| ==> rs[i].hist.bins != rs[k].hist.bins;
        serviceMap := serviceMap[rs[k].peerName := summary];
      }
    }

    /** Valid recorders with distinct peers and distinct counter arrays, each holding its peer's counts. */
    ghost predicate Collectable(rs: seq<AggregatingValueRecorder>, counts: map<string, seq<nat>>)
      reads set i | 0 <= i < |rs| :: rs[i].hist.bins
    {
      && (forall i :: 0 <= i < |rs| ==> rs[i].Valid())
      && (forall i, j :: 0 <= i < j < |rs| ==> rs[i].peerName != rs[j].peerName && rs[i].hist.bins != rs[j].hist.bins)
      && (forall i :: 0 <= i < |rs| ==> rs[i].peerName in counts && rs[i].hist.bins[..] == counts[rs[i].peerName])
    }

    /** What every recorder's histogram holds, by service and peer. */
    ghost function Snapshot(): map<Service, map<string, seq<nat>>>
      requires Valid()
      reads this, groups.Values, Histograms()
    {
      map s | s in groups :: map p | p in groups[s].recorders :: groups[s].recorders[p].hist.bins[..]
    }

    /** The snapshot describes what every service's histograms hold. */
    lemma SnapshotHolds()
      requires Valid()
      ensures forall s :: s in Snapshot() && Holds(s, Snapshot()[s])
    {
    }

    /** The histograms of a service hold the given counts, peer by peer. */
    ghost predicate Holds(service: Service, counts: map<string, seq<nat>>)
      reads this, groups.Values, ServiceHistograms(service)
    {
      && Owned(service)
      && counts.Keys == groups[service].recorders.Keys
      && forall p :: p in groups[service].recorders ==> groups[service].recorders[p].hist.bins[..] == counts[p]
    }

    /** Every histogram of a service is back to zero. */
    ghost predicate IsReset(service: Service)
      reads this, groups.Values, ServiceHistograms(service)
    {
      && Owned(service)
      && forall p :: p in groups[service].recorders ==>
           groups[service].recorders[p].hist.bins[..] == Zeros(groups[service].recorders[p].hist.bins.Length)
    }

    /**
     * An enumeration of one group's recorders meets what collecting them needs:
     * valid recorders with distinct peers and distinct counter arrays of this
     * service, each holding its peer's counts.
     */
    method Enumerate(service: Service, ghost counts: map<string, seq<nat>>)
      returns (rs: seq<AggregatingValueRecorder>, ghost position: map<string, nat>)
      requires Valid() && Holds(service, counts)
      ensures |rs| == |counts|
      ensures forall peer :: peer in groups[service].recorders ==>
                && peer in position && position[peer] < |rs| && rs[position[peer]] == groups[service].recorders[peer]
                && groups[service].recorders[peer].peerName == peer
      ensures forall i :: 0 <= i < |rs| ==> rs[i].hist.bins in ServiceHistograms(service)
      ensures Collectable(rs, counts)
    {
      rs, position := groups[service].Recorders();
      forall i, j | 0 <= i < j < |rs|
        ensures rs[i].hist.bins != rs[j].hist.bins
      {
        HistogramsDistinct(service, rs[i].peerName, service, rs[j].peerName);
      }
      assert counts.Keys == groups[service].recorders.Keys;
    }

    /**
     * One service's part of the summary: nothing when the group has no
     * recorder, else each peer's summary, resetting every histogram of the group.
     */
    method ServiceOutput(service: Service, ghost counts: map<string, seq<nat>>)
      returns (entry: Option<map<string, RecorderSummary>>)
      requires Valid() && Holds(service, counts)
      modifies ServiceHistograms(service)
      ensures entry == ServiceReport(counts)
      ensures forall p :: p in groups[service].recorders ==>
                groups[service].recorders[p].hist.bins[..] == Zeros(groups[service].recorders[p].hist.bins.Length)
    {
      var rs, position := Enumerate(service, counts);
      if |rs| == 0 {
        return None;
      }
      var serviceMap := CollectRecorders(rs, counts);
      EnumerationCollected(groups[service].recorders, rs, position, serviceMap, counts);
      entry := Some(serviceMap);
    }

    /** Services before position k of AllServices are reset; the others still hold what before records. */
    ghost predicate Progress(k: nat, before: map<Service, map<string, seq<nat>>>)
      reads this, groups.Values, Histograms()
    {
      forall s :: s in before && (if ServiceIndex(s) < k then IsReset(s) else Holds(s, before[s]))
    }

    method ServiceStep(service: Service, ghost before: map<Service, map<string, seq<nat>>>)
      returns (entry: Option<map<string, RecorderSummary>>)
      requires Valid() && Progress(ServiceIndex(service), before)
      modifies ServiceHistograms(service)
      ensures Progress(ServiceIndex(service) + 1, before)
      ensures entry == ServiceReport(before[service])
    {
      entry := ServiceOutput(service, before[service]);
      assert Owned(service);
      forall s | s != service
        ensures if ServiceIndex(s) < ServiceIndex(service) + 1 then IsReset(s) else Holds(s, before[s])
      {
        assert old(Owned(s));
        assert Owned(s);
        forall p | p in groups[s].recorders
          ensures groups[s].recorders[p].hist.bins[..] == old(groups[s].recorders[p].hist.bins[..])
        {
          assert groups[s].recorders[p].hist.bins in owners;
        }
      }
    }

    method GenerateOutput(ghost before: map<Service, map<string, seq<nat>>>) returns (output: Report)
      requires Valid()
      requires forall s :: s in before && Holds(s, before[s])
      modifies Histograms()
      ensures Valid()
      ensures output.emitInterval == interval
      ensures forall s :: output.EntryFor(s) == ServiceReport(before[s])
      ensures forall s :: IsReset(s)
    {
      var services := map[];
      for k := 0 to |AllServices|
        invariant Progress(k, before)
        invariant ReportsUpTo(services, before, k)
      {
        var service := AllServices[k];
        ServiceAtIndex(k);
        var entry := ServiceStep(service, before);
        ReportStep(services, service, entry, before);
        if entry.Some? {
          services := services[service := entry.value];
        }
      }
      output := Report(interval, services);
    }
  }
}

=== FILE: wrappers.dfy ===
/** Optional values and results with an error, shared by the other modules. */
module Wrappers {

  datatype Option<+T> = None | Some(value: T)

  datatype Result<+T, +E> = Ok(value: T) | Err(error: E)
}
